=== FILE: README.md ===
# Gleam's pipe typer and Chez Scheme emitter, in Dafny

This project models two parts of the Gleam compiler and proves properties of them.

- **The pipe typer** (`PipeTyper` in `compiler-core/src/type_/pipe.rs`) types a chain
  `a |> f |> g(x)` and rewrites it into a `Pipeline` node. The node holds one
  assignment to the synthetic variable `_pipe` per stage except the last, and the last
  stage as its final expression. Each stage is rewritten by its shape:
  - a function literal is called with the pipe variable;
  - a call `f(..args)` becomes `f(..args)(_pipe)` when `f` takes exactly as many
    parameters as there are explicit arguments, and `f(_pipe, ..args)` otherwise;
  - anything else becomes `e(_pipe)`, checked by unifying `e`'s type with
    `fn(left-hand type) -> fresh`.

  While the pipeline is typed, `_pipe` is bound in the scope to the previous stage. The
  scope is put back once the whole pipeline is typed.
- **The Chez emitter** (`compiler-core/src/chez.rs`) renders a typed module as Chez Scheme
  text. It renders:
  - a `(load "…/prelude.scm")` header;
  - one `(define m.f (lambda (params) (begin …)))` per function;
  - statements, with each assignment as a `let` that encloses the statements after it;
  - integer and float literals, variables, calls, and `+`/`-`.

  Every other form panics: with the `todo!()` message, or with `unreachable` for `Invalid`
  expressions and `use` statements.

Files:

- `ast.dfy` holds the syntax trees as far as these two parts read them. It has modules
  `Wrappers`, `Ast`, `Types`, `TypedAst` and `UntypedAst`. The compiler's own AST and type
  definitions are not part of this model. The datatypes carry the fields the two core
  files read or build.
- `text.dfy` (module `Text`) holds joining and splitting at spaces, and a left-to-right
  parenthesis scanner (`Nesting`) that defines well-nested text (`Balanced`).
- `chez.dfy` (module `Chez`) is the emitter:
  - pure recursive rendering functions;
  - `EmitModule`, the loop that appends each definition to the output;
  - the nesting and ordering lemmas.
- `pipe.dfy` (module `Pipe`) is the pipe typer:
  - the class `ExprTyper` holds the part of the expression typer's state the pipe typer
    changes: the scope, the problems log and the fresh type-variable counter;
  - the class `PipeTyper` has the fields `argumentType`, `argumentLocation` and
    `assignments`, updated in place;
  - the pure rules are module-level functions.

The emitter's result type `Result<String, Error>`, together with its panics, is modelled as
`Outcome = Ok | Err | Panicked(message)`. A panic passes through `:-` like an error does,
since it ends the compilation.

Type inference, call inference, `fn_types` and unification belong to the rest of the type
checker. They are the fields of an `Oracle` value: total functions of their inputs and of
the current scope.

## Model

| member | source | states |
|---|---|---|
| Chez.EmitExpression | compiler-core/src/chez.rs:110-188 | Never returns `Err`. Succeeds exactly on the supported subset: int and float literals, local / module-function / record variables, calls, and `+`/`-` on ints and floats, all checked recursively. `Invalid` panics with `unreachable`. A binary operator other than `+`/`-` panics with the `todo!()` message, and so does every other unsupported form that is not a call or a binary operation. An unsupported call or `+`/`-` fails with the first failure among its parts, so it too panics with one of those two messages. |
| Chez.EmitArguments | compiler-core/src/chez.rs:130-137 | Renders call arguments in order and stops at the first failure (`try_collect`). Succeeds exactly when every argument is supported. Then it gives one text per argument, and the k-th text is the rendering of the k-th argument's value. |
| Chez.CallText | compiler-core/src/chez.rs:130-139 | A supported call renders as `(`, the callee's text, one space, the arguments' texts in order separated by single spaces, then `)`. |
| Chez.ExpressionBalanced | compiler-core/src/chez.rs:110-188 | If the names and literal texts hold no parenthesis, a rendered expression is well nested: every `(` is closed, and no `)` comes before its `(`. |
| Chez.CallBalanced | compiler-core/src/chez.rs:130-139 | `(fun args…)` is well nested when the callee and each argument rendering are. |
| Chez.BinOpBalanced | compiler-core/src/chez.rs:156-167 | `(+ l r)` and `(- l r)` are well nested when both operands are. |
| Chez.BinOpText | compiler-core/src/chez.rs:156-167 | A supported `+` or `-` renders as `(`, the operator (`+` for both addition kinds, `-` for both subtraction kinds), one space, the left operand's text, one space, the right operand's text, then `)`. |
| Chez.AdditionKindsShareOperator | compiler-core/src/chez.rs:156-161 | `AddInt` and `AddFloat` render identically. A rendered sum is exactly `(+ ` followed by the left operand's text, one space, the right operand's text and `)`. |
| Chez.SubtractionKindsShareOperator | compiler-core/src/chez.rs:162-167 | `SubInt` and `SubFloat` render identically. A rendered difference is exactly `(- ` followed by the left operand's text, one space, the right operand's text and `)`. |
| Chez.EmitStatements | compiler-core/src/chez.rs:69-83 | Never returns `Err`. Succeeds exactly when every statement is supported. A list whose first statement is a `use` panics with `unreachable`. |
| Chez.EmitAssignment | compiler-core/src/chez.rs:85-108 | Never returns `Err`. Succeeds exactly when the value and all later statements are supported and the pattern is a variable or a discard. Other patterns panic. |
| Chez.FirstStatementEncloses | compiler-core/src/chez.rs:71-100 | The first statement renders as a head, then the rest's rendering, then one `))` pair if it is an assignment. An expression statement's head is its rendering followed by one space, and leaves nothing open. An assignment's head is `(let ((name value)) (begin `, or `(let ((_ value)) (begin ` for a discard, and leaves exactly the two parentheses open that the `))` closes. |
| Chez.BindingsEncloseRest | compiler-core/src/chez.rs:85-100 | After any prefix of the statements, the whole rendering is an opening text, then the rendering of the remaining statements, then one `))` per assignment in the prefix. The opening leaves exactly those parentheses open, so each binding lexically wraps every later statement. |
| Chez.StatementsBalanced | compiler-core/src/chez.rs:69-108 | A rendered statement list is well nested: every `let` scope an assignment opens is closed at the end. |
| Chez.ParameterNames | compiler-core/src/chez.rs:42-48 | Gives one binding name per parameter, the k-th being the k-th parameter's name, discards included. |
| Chez.EmitFunctionDefinition | compiler-core/src/chez.rs:41-67 | Never returns `Err`. Succeeds exactly when the function has a name and a supported body. A missing name panics with `function to have name`. |
| Chez.DefinitionText | compiler-core/src/chez.rs:41-67 | A supported function renders exactly as `(define m.f`, a newline, `  (lambda (P)`, a newline, then `    (begin B)))`. Here `m` is the module name, `f` the function name, `P` the parameters' binding names joined by single spaces, and `B` the rendering of the body's statements. |
| Chez.ParametersInDeclarationOrder | compiler-core/src/chez.rs:41-66 | The rendering starts `(define m.f\n  (lambda (P)`. Cutting `P` at its spaces gives back every parameter's binding name, in declaration order, one per parameter. |
| Chez.DefineTextBalanced | compiler-core/src/chez.rs:62-66 | The `define`/`lambda`/`begin` frame is well nested around a well-nested name, parameter list and body. |
| Chez.FunctionDefinitionBalanced | compiler-core/src/chez.rs:41-67 | A rendered function definition is one well-nested s-expression when its names and literal texts hold no parenthesis. |
| Chez.EmitDefinition | compiler-core/src/chez.rs:26-35 | Succeeds exactly on a supported function. The other definition kinds panic. |
| Chez.DefinitionsCode | compiler-core/src/chez.rs:25-36 | The definitions' text succeeds exactly when every definition is supported, and never returns `Err`. |
| Chez.DefinitionsCodeSnoc | compiler-core/src/chez.rs:27-30 | One more definition either appends its rendering and a newline, or its failure becomes the result. |
| Chez.DefinitionsFailurePersists | compiler-core/src/chez.rs:25-36 | Once a definition fails, the whole module's result is that failure: later definitions cannot change it. |
| Chez.ModuleCode | compiler-core/src/chez.rs:15-39 | The module succeeds exactly when every definition is supported, never returns `Err`, and its text starts with the `(load "prelude")` header. |
| Chez.EmitModule | compiler-core/src/chez.rs:15-39 | The loop that appends each definition's rendering and `\n` to the header returns exactly `ModuleCode`. On the first failing definition it returns that failure. |
| Chez.DefinitionsBalanced | compiler-core/src/chez.rs:25-36 | The concatenated definitions are well nested. |
| Chez.ModuleBalanced | compiler-core/src/chez.rs:15-39 | With a parenthesis-free prelude path, the whole emitted module is well nested. |
| Text.SplitJoin | compiler-core/src/chez.rs:42-49 | Joining space-free, non-empty words with single spaces and cutting the result at spaces gives the words back, in order. |
| Pipe.PipeTyper.Infer | compiler-core/src/type_/pipe.rs:20-31 | For L ≥ 2 stages the result is a `Pipeline` with exactly L−1 assignments, and the last stage is its final expression, a call. Every assignment binds `_pipe` at its value's location. Each stage j ≥ 1 becomes what `StageRewrite` makes of it when typed in the starting scope, with `_pipe` bound to the value of assignment j−1 and that value's type and location on the left. It lands in assignment j, or in the final expression for the last stage. The scope afterwards equals the scope before. The problems log gains exactly, in order, the first stage's inference error if it has one (`InferProblems`), then for each later stage its redundant-capture warning (`HoleWarnings`) and its `StageProblems`, with the same inputs as its rewrite (`StagesProblems`). The fresh-variable counter never decreases. If the first stage is inferred, the first assignment holds it. If inference fails, the first assignment holds `Invalid` at the stage's location, with the next fresh type variable, and the first new problem is that error. The counters recorded per stage (`varIds`, `VarIdsWithin`) never decrease and lie between the fresh-variable counter before and after the call, so no stage is typed with a type variable allocated before the call. |
| Pipe.PipeTyper.Run | compiler-core/src/type_/pipe.rs:33-67 | Gives the same guarantees as `Infer`, stage rewriting included, without restoring the scope. The pipeline spans from the start of the first typed value to the end of the last stage. |
| Pipe.PipeTyper.constructor | compiler-core/src/type_/pipe.rs:50-60 | The new typer holds the given size, left-hand type and location, and span, with no assignments. |
| Pipe.PipeTyper.InferExpressions | compiler-core/src/type_/pipe.rs:69-80 | Moves the pushed assignments and the final expression into the `Pipeline`, leaving the typer's list empty. For any scope that differs from the current one at most in `_pipe`, each stage after the first is the `StageRewrite` of the previous assignment's value in it, and the log gains exactly `StagesProblems`, as for `InferEachExpression`. The counters recorded per stage (`varIds`, `VarIdsWithin`) never decrease and lie between the fresh-variable counter before and after the call, so no stage is typed with a type variable allocated before the call. |
| Pipe.PipeTyper.InferEachExpression | compiler-core/src/type_/pipe.rs:82-156 | The loop over the stages after the first pushes all but the last as assignments and returns the last as `finally` (`StagesRewritten`). Stage k becomes assignment k+1, or `finally` for the last stage. It is exactly the `StageRewrite` of stage k in the given scope with `_pipe` bound to assignment k, with assignment k's type and location on the left. The given scope may be any that differs from the current one at most in `_pipe`. The log gains exactly, stage by stage, each stage's redundant-capture warning and then its `StageProblems`, with the same inputs (`StagesProblems`). The loop keeps `Valid`: the left-hand type and location and the scope's `_pipe` belong to the last assignment. Outside `_pipe` the scope is unchanged. The counters recorded per stage (`varIds`, `VarIdsWithin`) never decrease and lie between the fresh-variable counter before and after the call, so no stage is typed with a type variable allocated before the call. |
| Pipe.PipeTyper.AdvanceStage | compiler-core/src/type_/pipe.rs:94-153 | One pass of the loop: stage i is typed, then kept as the final expression if it is the last stage and pushed as an assignment otherwise. The earlier assignments are kept as a prefix. The counter recorded for the stage (`varIds'` is `varIds` plus one entry) is the counter before the pass, the one the stage was typed with. The loop's account (`StagesTyped`) goes from the first i stages to the first i+1: the assignments and final expression are their `StageRewrite`s, and the log is `StagesProblems`. |
| Pipe.PipeTyper.InferNextStage | compiler-core/src/type_/pipe.rs:94-146 | One stage of the loop. The result is exactly `StageRewrite` in the current scope and counter, with the current left-hand type and location. The log gains exactly the stage's redundant-capture warning, if any (`HoleWarnings`), and then the stage's own problems (`StageProblems`). It keeps `Valid` and leaves the scope as it was. |
| Pipe.PipeTyper.InferStage | compiler-core/src/type_/pipe.rs:96-146 | The result is exactly `StageRewrite` of the stage in the scope and counter before the call, and the log gains exactly its `StageProblems`. A function literal logs nothing and takes no fresh type variable. A call takes one fresh variable exactly when its callee fails to infer. Anything else takes at least one, and the call's type is the last fresh variable taken. |
| Pipe.PipeTyper.PushAssignment | compiler-core/src/type_/pipe.rs:211-216 | Keeps `Valid`. Afterwards the left-hand type and location are the pushed expression's. |
| Pipe.PipeTyper.PushAssignmentNoUpdate | compiler-core/src/type_/pipe.rs:218-234 | Appends the assignment `_pipe = e` at `e`'s location, and binds `_pipe` in the scope to `e`'s location and type as a generated variable. Nothing else changes. |
| Pipe.InferApplyToCallPipe | compiler-core/src/type_/pipe.rs:236-273 | The explicit arguments are typed against the callee first. The resulting inner call is then the callee of an outer call whose only argument is the pipe variable. Both calls are at the stage's location. |
| Pipe.InferInsertPipe | compiler-core/src/type_/pipe.rs:275-300 | The callee is call-inferred with the pipe argument inserted at index 0, followed by the explicit arguments in their order. |
| Pipe.StageRewrite | compiler-core/src/type_/pipe.rs:96-146 | Specifies the rewrite of one stage after the first, by shape. A function literal is call-inferred with the pipe argument alone. A call goes to `InferApplyToCallPipe` when its callee, or the `Invalid` standing in for it at the call's location, has exactly as many parameters as there are explicit arguments, and to `InferInsertPipe` otherwise. Anything else is a call whose only argument is the typed pipe variable, at a type variable that is the next fresh one or the one after. Every stage becomes a call. |
| Pipe.StageProblems | compiler-core/src/type_/pipe.rs:96-146 | Specifies what typing one stage after the first logs. A function literal logs nothing (call inference is an oracle). A call logs its callee's inference error, if any (line 126). Anything else logs its own inference error, if any, then the failed unification of its type with `fn(left-hand type) -> fresh` (lines 325-335). That is at most two problems. |
| Pipe.StagesAreCalls | compiler-core/src/type_/pipe.rs:94-153 | In a pipeline whose stages are rewritten as `StagesRewritten` says, the final expression and every assignment after the first are calls. |
| Pipe.StagesProblemsSnoc | compiler-core/src/type_/pipe.rs:88-153 | Typing one more stage appends its redundant-capture warning and its `StageProblems`, with `_pipe` bound to the latest assignment, to what the earlier stages logged. Assignments pushed later do not change what the earlier stages logged. |
| Pipe.InsertPipeArgument | compiler-core/src/type_/pipe.rs:282 | The argument list has one more element: the pipe argument at index 0, and explicit argument k at index k+1. |
| Pipe.PipeTyper.InferApplyPipe | compiler-core/src/type_/pipe.rs:302-344 | The result is `fun(_pipe)`, with the typed pipe variable as its only argument and a fresh type variable as its type. A failed callee inference logs the error and uses `Invalid` at the callee's location. A failed unification with `fn(left type) -> fresh` logs one error, marked as a pipe type mismatch exactly when `IsPipeTypeMismatch` holds and flipped otherwise. The log gains exactly these problems, in this order, and nothing else. |
| Pipe.IsPipeTypeMismatch | compiler-core/src/type_/pipe.rs:346-363 | True exactly for `CouldNotUnify` between two function types with equally many parameters, at least one, whose first parameters do not unify. False for any other error and for zero-parameter functions. |
| Pipe.RedundantCaptureHole | compiler-core/src/type_/pipe.rs:365-387 | Some location exactly when the stage is a capture whose first body statement is a call whose first argument is the unlabelled capture hole. The location is that argument's. |
| Pipe.PipeTyper.WarnIfCallFirstArgumentIsHole | compiler-core/src/type_/pipe.rs:365-387 | Appends one redundant-capture warning at the hole's location exactly when `RedundantCaptureHole` finds one. Otherwise it appends nothing. The scope and the fresh-variable counter are unchanged. |
| Pipe.LeftHandArgument | compiler-core/src/type_/pipe.rs:171-209 | The untyped pipe argument is unlabelled, marked implicit with origin `Pipe`, and refers to `_pipe`. It is never a capture hole. |
| Pipe.TypedLeftHandArgument | compiler-core/src/type_/pipe.rs:158-200 | The typed pipe argument is unlabelled and marked implicit with origin `Pipe`. It is the variable `_pipe`, with the current left-hand type, at the left-hand location. |
| Pipe.ExprTyper.InferOrInvalid | compiler-core/src/type_/pipe.rs:39-48 | On success it gives the inferred expression and changes nothing. On failure it appends exactly that error and gives `Invalid` at the given location, with the next fresh type variable. The scope is unchanged either way. |

## Left out

- Float and integer literals are emitted as the literal text the typed AST carries (`value.to_string()` of a string value). Float formatting is therefore not modelled.
- The prelude path is a given string. `Utf8Path` parent/join and the `expect` on a missing parent directory are not modelled.
- The `PRELUDE` template (`include_str!`) is not part of this model.
- The emitter never creates an `Err`; it only forwards one with `?`. `Outcome.Err` is kept for that reason, and every rendering function is proved never to return it.
- The balance lemmas assume names, literal texts and the prelude path hold no parenthesis. The emitter does not check this.
- The balance lemmas cover only the rendered text. Scheme evaluation is not modelled.
- Type inference, `do_infer_call`, `do_infer_call_with_known_fun`, `fn_types` and `unify` are oracle functions. So is `check_if_pipe_type_mismatch`'s inner unification.
- Not modelled for those oracles: the diagnostics they log, the fresh type variables they allocate, and the type-variable links unification creates.
- `CallKind::Function` is not passed on.
- `convert_unify_error` and `flip_unify_error` are not modelled. A unification failure is logged as the raw error, its location, a `flipped` flag and the pipe-type-mismatch situation.
- The `previous_panics` unreachable-code warning (compiler-core/src/type_/pipe.rs:89-92) is left out. The expression typer's `previous_panics` flag is not part of `ExprTyper` here, so the exact problems-log equations (`StagesProblems` and the methods that use it) do not include that warning.
- Pipe.PipeTyper.Infer: requires at least two stages. With one stage the source panics with "Empty pipeline in typer" at `finally.expect`, and the parser never builds such a pipeline.
- `Run`, `Infer` and the methods under them return a ghost sequence `varIds`: the fresh type-variable counter at the start of each later stage. The contracts state that these counters never decrease from stage to stage, and that each lies between the counter before the pipeline and the counter after it. They do not state the exact gap between consecutive counters at the pipeline level. That gap is stated per stage, on `InferStage`.
- `Arc`, `Box` and `Vec1` ownership details are not modelled. Spans are plain start/end pairs, and only the pipeline's own span is computed.

=== FILE: ast.dfy ===
// The compiler's abstract syntax trees, as far as the pipe typer and the
// Chez Scheme emitter look at them.

module Wrappers {

  datatype Option<+T> = None | Some(value: T)
}

/** Items of the AST shared by the untyped and the typed trees. */
module Ast {

  /** A byte range of the source file. */
  datatype SrcSpan = SrcSpan(start: nat, end: nat)

  /** Why a call argument was inserted by the compiler rather than written. */
  datatype ImplicitCallArgOrigin = Pipe | UseCallback

  /** The name every synthetic pipeline binding uses. */
  const PIPE_VARIABLE: string := "_pipe"

  /** The name the parser gives to the hole `_` of a function capture. */
  const CAPTURE_VARIABLE: string := "gleam@capture_variable"
}

/** Types as the pipe typer inspects them; everything else about them belongs
    to the inference engine. */
module Types {

  datatype Type =
    | Fn(args: seq<Type>, ret: Type)
    | Var(id: nat)
    | Named(moduleName: string, name: string, args: seq<Type>)

  /** A failure reported by unification. Only `CouldNotUnify` is inspected. */
  datatype UnifyError =
    | CouldNotUnify(expected: Type, given: Type)
    | OtherUnifyError(code: nat)
}

module TypedAst {
  import opened Wrappers
  import opened Ast
  import Types

  datatype Publicity = Public | Private

  datatype Deprecation = NotDeprecated | Deprecated(message: string)

  /** Whether a variable was written by the programmer or made by the compiler. */
  datatype VariableOrigin = Generated | FromSource

  datatype ValueConstructorVariant =
    | LocalVariable(location: SrcSpan, origin: VariableOrigin)
    | ModuleConstant(moduleName: string)
    | LocalConstant
    | ModuleFn(moduleName: string, name: string)
    | Record(moduleName: string, name: string)

  /** What a variable reference resolved to. */
  datatype ValueConstructor = ValueConstructor(
    publicity: Publicity,
    deprecation: Deprecation,
    tipe: Types.Type,
    variant: ValueConstructorVariant)

  datatype BinOpName =
    | And | Or | Eq | NotEq
    | LtInt | LtEqInt | LtFloat | LtEqFloat
    | GtEqInt | GtInt | GtEqFloat | GtFloat
    | AddInt | AddFloat | SubInt | SubFloat
    | MultInt | MultFloat | DivInt | DivFloat
    | RemainderInt | Concatenate

  datatype CallArg = CallArg(
    argLabel: Option<string>,
    location: SrcSpan,
    value: TypedExpr,
    implicit: Option<ImplicitCallArgOrigin>)

  datatype PipelineAssignment = PipelineAssignment(location: SrcSpan, name: string, value: TypedExpr)

  /** The typed expression tree. Literals keep the text they were written
      with. The children of the forms that neither the pipe typer builds nor
      the emitter renders are not part of this model: those forms keep only
      their location and type. */
  datatype TypedExpr =
    | Int(location: SrcSpan, tipe: Types.Type, value: string)
    | Float(location: SrcSpan, tipe: Types.Type, value: string)
    | String(location: SrcSpan, tipe: Types.Type, value: string)
    | Block(location: SrcSpan, tipe: Types.Type)
    | Pipeline(location: SrcSpan, assignments: seq<PipelineAssignment>, finally: TypedExpr)
    | Var(location: SrcSpan, name: string, valueConstructor: ValueConstructor)
    | Fn(location: SrcSpan, tipe: Types.Type)
    | List(location: SrcSpan, tipe: Types.Type)
    | Call(location: SrcSpan, tipe: Types.Type, fun: TypedExpr, args: seq<CallArg>)
    | BinOp(location: SrcSpan, tipe: Types.Type, op: BinOpName, left: TypedExpr, right: TypedExpr)
    | Case(location: SrcSpan, tipe: Types.Type)
    | RecordAccess(location: SrcSpan, tipe: Types.Type)
    | ModuleSelect(location: SrcSpan, tipe: Types.Type)
    | Tuple(location: SrcSpan, tipe: Types.Type)
    | TupleIndex(location: SrcSpan, tipe: Types.Type)
    | Todo(location: SrcSpan, tipe: Types.Type)
    | Panic(location: SrcSpan, tipe: Types.Type)
    | BitArray(location: SrcSpan, tipe: Types.Type)
    | RecordUpdate(location: SrcSpan, tipe: Types.Type)
    | NegateBool(location: SrcSpan, tipe: Types.Type)
    | NegateInt(location: SrcSpan, tipe: Types.Type)
    | Invalid(location: SrcSpan, tipe: Types.Type)

  /** The type of an expression: a pipeline has the type of its final
      expression, a variable the type of what it refers to. */
  function TypeOf(e: TypedExpr): Types.Type
  {
    match e
    case Pipeline(_, _, finally) => TypeOf(finally)
    case Var(_, _, valueConstructor) => valueConstructor.tipe
    case _ => e.tipe
  }

  datatype Pattern =
    | Int(location: SrcSpan)
    | Float(location: SrcSpan)
    | String(location: SrcSpan)
    | Variable(location: SrcSpan, name: string)
    | VarUsage(location: SrcSpan)
    | Assign(location: SrcSpan)
    | Discard(location: SrcSpan, name: string)
    | List(location: SrcSpan)
    | Constructor(location: SrcSpan)
    | Tuple(location: SrcSpan)
    | BitArray(location: SrcSpan)
    | StringPrefix(location: SrcSpan)
    | Invalid(location: SrcSpan)

  datatype TypedAssignment = TypedAssignment(location: SrcSpan, value: TypedExpr, pattern: Pattern)

  datatype TypedStatement =
    | Expression(expr: TypedExpr)
    | Assignment(assignment: TypedAssignment)
    | Use(location: SrcSpan)

  /** How a function parameter is named; every form carries the binding name. */
  datatype ArgNames =
    | Discard(name: string)
    | LabelledDiscard(argLabel: string, name: string)
    | Named(name: string)
    | NamedLabelled(argLabel: string, name: string)

  datatype Arg = Arg(names: ArgNames, location: SrcSpan, tipe: Types.Type)

  datatype TypedFunction = TypedFunction(
    location: SrcSpan,
    name: Option<string>,
    arguments: seq<Arg>,
    body: seq<TypedStatement>)

  datatype Definition =
    | Function(func: TypedFunction)
    | TypeAlias(location: SrcSpan)
    | CustomType(location: SrcSpan)
    | Import(location: SrcSpan)
    | ModuleConstant(location: SrcSpan)

  datatype TypedModule = TypedModule(name: string, definitions: seq<Definition>)
}

/** The untyped tree as the pipe typer distinguishes it: function literals,
    calls and variables; every other expression form is `Other`. */
module UntypedAst {
  import opened Wrappers
  import opened Ast

  datatype FunctionLiteralKind = Capture | Anonymous | UseCallback

  datatype UntypedExpr =
    | Fn(location: SrcSpan, kind: FunctionLiteralKind, body: seq<UntypedStatement>)
    | Call(location: SrcSpan, fun: UntypedExpr, arguments: seq<CallArg>)
    | Var(location: SrcSpan, name: string)
    | Other(location: SrcSpan, id: nat)

  datatype CallArg = CallArg(
    argLabel: Option<string>,
    location: SrcSpan,
    value: UntypedExpr,
    implicit: Option<ImplicitCallArgOrigin>)

  datatype UntypedStatement =
    | Expression(expr: UntypedExpr)
    | OtherStatement(location: SrcSpan)

  /** A call argument is a capture hole when it is the variable the parser
      puts in place of `_`. */
  predicate IsCaptureHole(arg: CallArg)
  {
    arg.value.Var? && arg.value.name == CAPTURE_VARIABLE
  }
}

=== FILE: chez.dfy ===
// The Chez Scheme emitter: renders a typed module as Scheme s-expression
// text. Only integer and float literals, variable references, calls, the
// additive operators, expression statements, assignments to a variable or a
// discard, and function definitions are rendered; every other form panics:
// with the `todo!()` message, or with `unreachable` for `Invalid` and `use`.

module Chez {
  import opened Wrappers
  import opened TypedAst
  import opened Text
  import Ast
  import Types

  /** The compiler's error type. The emitter only passes errors on with `?`;
      it never makes one. */
  datatype EmitError = EmitError(description: string)

  /** What an emitting function does: returns text, returns an error, or
      panics with a message. A panic ends the whole compilation, so it passes
      through every caller like an error does. */
  datatype Outcome<+T> = Ok(value: T) | Err(error: EmitError) | Panicked(message: string)
  {
    predicate IsFailure()
    {
      !Ok?
    }

    function PropagateFailure<U>(): Outcome<U>
      requires !Ok?
    {
      if Err? then Err(error) else Panicked(message)
    }

    function Extract(): T
      requires Ok?
    {
      value
    }
  }

  /** The message of a `todo!()` panic. */
  const TODO: string := "not yet implemented"

  /** The message of `panic!("unreachable")`. */
  const UNREACHABLE: string := "unreachable"

  /** The message of the `expect` on a function's name. */
  const NO_NAME: string := "function to have name"

  // ---------------------------------------------------------------------
  // Which inputs the emitter handles

  predicate IsAdditive(op: BinOpName)
  {
    op.AddInt? || op.AddFloat? || op.SubInt? || op.SubFloat?
  }

  /** The expressions the emitter renders without reaching a `todo!()` or an
      unreachable arm. */
  predicate SupportedExpr(e: TypedExpr)
    decreases e
  {
    match e
    case Int(_, _, _) => true
    case Float(_, _, _) => true
    case Var(_, _, valueConstructor) =>
      valueConstructor.variant.LocalVariable?
      || valueConstructor.variant.ModuleFn?
      || valueConstructor.variant.Record?
    case Call(_, _, fun, args) =>
      SupportedExpr(fun) && forall k :: 0 <= k < |args| ==> SupportedExpr(args[k].value)
    case BinOp(_, _, op, left, right) =>
      IsAdditive(op) && SupportedExpr(left) && SupportedExpr(right)
    case _ => false
  }

  predicate SupportedStatement(s: TypedStatement)
  {
    match s
    case Expression(expr) => SupportedExpr(expr)
    case Assignment(assign) =>
      SupportedExpr(assign.value) && (assign.pattern.Variable? || assign.pattern.Discard?)
    case Use(_) => false
  }

  predicate SupportedStatements(stmts: seq<TypedStatement>)
  {
    forall k :: 0 <= k < |stmts| ==> SupportedStatement(stmts[k])
  }

  predicate SupportedFunction(f: TypedFunction)
  {
    f.name.Some? && SupportedStatements(f.body)
  }

  predicate SupportedDefinition(d: Definition)
  {
    d.Function? && SupportedFunction(d.func)
  }

  // ---------------------------------------------------------------------
  // Names and literal texts that hold no parenthesis

  /** Every name and literal text the rendering of `e` copies is free of
      parentheses. */
  ghost predicate AtomsParenFree(e: TypedExpr)
    decreases e
  {
    match e
    case Int(_, _, value) => ParenFree(value)
    case Float(_, _, value) => ParenFree(value)
    case Var(_, name, valueConstructor) =>
      ParenFree(name)
      && (valueConstructor.variant.ModuleFn? || valueConstructor.variant.Record? ==>
            ParenFree(valueConstructor.variant.moduleName) && ParenFree(valueConstructor.variant.name))
    case Call(_, _, fun, args) =>
      AtomsParenFree(fun) && forall k :: 0 <= k < |args| ==> AtomsParenFree(args[k].value)
    case BinOp(_, _, _, left, right) => AtomsParenFree(left) && AtomsParenFree(right)
    case _ => true
  }

  ghost predicate AtomsParenFreeStatement(s: TypedStatement)
  {
    match s
    case Expression(expr) => AtomsParenFree(expr)
    case Assignment(assign) =>
      AtomsParenFree(assign.value) && (assign.pattern.Variable? ==> ParenFree(assign.pattern.name))
    case Use(_) => true
  }

  ghost predicate AtomsParenFreeStatements(stmts: seq<TypedStatement>)
  {
    forall k :: 0 <= k < |stmts| ==> AtomsParenFreeStatement(stmts[k])
  }

  ghost predicate AtomsParenFreeFunction(typedModule: TypedModule, func: TypedFunction)
  {
    ParenFree(typedModule.name)
    && (func.name.Some? ==> ParenFree(func.name.value))
    && (forall k :: 0 <= k < |func.arguments| ==> ParenFree(func.arguments[k].names.name))
    && AtomsParenFreeStatements(func.body)
  }

  /** Wrapping balanced `inner` text, with `head` and a space before it, in
      parentheses keeps it balanced. */
  lemma ListTextBalanced(head: string, inner: string)
    requires Balanced(head) && Balanced(inner)
    ensures Balanced("(" + head + " " + inner + ")")
  {
    ParenFreeBalanced(" ");
    BalancedConcat(head, " ");
    BalancedConcat(head + " ", inner);
    BalancedWrap(head + " " + inner);
    assert "(" + head + " " + inner + ")" == "(" + (head + " " + inner) + ")";
  }

  // ---------------------------------------------------------------------
  // Rendering

  /** Renders an expression. */
  function EmitExpression(e: TypedExpr): (r: Outcome<string>)
    ensures !r.Err?
    ensures r.Ok? <==> SupportedExpr(e)
    ensures r.Panicked? ==> r.message == TODO || r.message == UNREACHABLE
    ensures e.Invalid? ==> r == Panicked(UNREACHABLE)
    ensures e.BinOp? && !IsAdditive(e.op) ==> r == Panicked(TODO)
    ensures !e.Invalid? && !e.Call? && !e.BinOp? && !SupportedExpr(e) ==> r == Panicked(TODO)
    decreases e, 1
  {
    match e
    case Int(_, _, value) => Ok(value)
    case Float(_, _, value) => Ok(value)
    case Var(_, name, valueConstructor) =>
      (match valueConstructor.variant
       case LocalVariable(_, _) => Ok(name)
       case ModuleFn(moduleName, fnName) => Ok(moduleName + "." + fnName)
       case Record(moduleName, recordName) => Ok(moduleName + "." + recordName)
       case _ => Panicked(TODO))
    case Call(_, _, fun, args) =>
      var fun :- EmitExpression(fun);
      var args :- EmitArguments(e, args);
      Ok("(" + fun + " " + Join(args, " ") + ")")
    case BinOp(_, _, op, left, right) =>
      if op.AddInt? || op.AddFloat? then
        var lhs :- EmitExpression(left);
        var rhs :- EmitExpression(right);
        Ok("(+ " + lhs + " " + rhs + ")")
      else if op.SubInt? || op.SubFloat? then
        var lhs :- EmitExpression(left);
        var rhs :- EmitExpression(right);
        Ok("(- " + lhs + " " + rhs + ")")
      else
        Panicked(TODO)
    case Invalid(_, _) => Panicked(UNREACHABLE)
    case _ => Panicked(TODO)
  }

  /** Renders the arguments of the call `call` (from some position on), in
      order, stopping at the first failure, as `try_collect` does. */
  function EmitArguments(ghost call: TypedExpr, args: seq<CallArg>): (r: Outcome<seq<string>>)
    requires call.Call? && forall k :: 0 <= k < |args| ==> args[k] in call.args
    ensures !r.Err?
    ensures r.Ok? <==> forall k :: 0 <= k < |args| ==> SupportedExpr(args[k].value)
    ensures r.Ok? ==> |r.value| == |args|
    ensures r.Ok? ==> forall k :: 0 <= k < |args| ==> EmitExpression(args[k].value) == Ok(r.value[k])
    ensures r.Panicked? ==> r.message == TODO || r.message == UNREACHABLE
    decreases call, 0, |args|
  {
    if args == [] then Ok([])
    else
      var first :- EmitExpression(args[0].value);
      var rest :- EmitArguments(call, args[1..]);
      Ok([first] + rest)
  }

  /** The texts of supported call arguments, in order. */
  function ArgumentTexts(args: seq<CallArg>): (texts: seq<string>)
    requires forall k :: 0 <= k < |args| ==> SupportedExpr(args[k].value)
    ensures |texts| == |args|
  {
    seq(|args|, k requires 0 <= k < |args| => EmitExpression(args[k].value).value)
  }

  /** The Scheme operator of a supported arithmetic operator. */
  function OperatorName(op: BinOpName): (name: string)
    requires IsAdditive(op)
    ensures name == "+" <==> op.AddInt? || op.AddFloat?
    ensures name == "-" <==> op.SubInt? || op.SubFloat?
  {
    if op.AddInt? || op.AddFloat? then "+" else "-"
  }

  /** A supported call is rendered as a list: the callee's text, one space,
      then the arguments' texts in order, separated by single spaces. */
  lemma CallText(e: TypedExpr)
    requires e.Call? && SupportedExpr(e)
    ensures EmitExpression(e)
         == Ok("(" + EmitExpression(e.fun).value + " " + Join(ArgumentTexts(e.args), " ") + ")")
  {
    assert EmitArguments(e, e.args).value == ArgumentTexts(e.args);
  }

  /** A supported arithmetic expression is rendered in prefix form: the
      operator, then the left and the right operand, separated by spaces. */
  lemma BinOpText(e: TypedExpr)
    requires e.BinOp? && SupportedExpr(e)
    ensures EmitExpression(e)
         == Ok("(" + OperatorName(e.op) + " " + EmitExpression(e.left).value + " "
               + EmitExpression(e.right).value + ")")
  {
    if e.op.AddInt? || e.op.AddFloat? {
      assert "(+ " == "(" + "+" + " ";
    } else {
      assert "(- " == "(" + "-" + " ";
    }
  }

  /** Whenever the names and literal texts it copies hold no parenthesis,
      the rendering of an expression is a well-nested s-expression. */
  lemma {:induction false} ExpressionBalanced(e: TypedExpr)
    requires SupportedExpr(e) && AtomsParenFree(e)
    ensures Balanced(EmitExpression(e).value)
    decreases e, 1
  {
    if e.Call? {
      CallBalanced(e);
    } else if e.BinOp? {
      BinOpBalanced(e);
    } else if e.Var? && !e.valueConstructor.variant.LocalVariable? {
      ParenFreeBalanced(e.valueConstructor.variant.moduleName + "." + e.valueConstructor.variant.name);
    } else if e.Var? {
      ParenFreeBalanced(e.name);
    } else {
      ParenFreeBalanced(e.value);
    }
  }

  lemma {:induction false} CallBalanced(e: TypedExpr)
    requires e.Call? && SupportedExpr(e) && AtomsParenFree(e)
    ensures Balanced(EmitExpression(e).value)
    decreases e, 0
  {
    ExpressionBalanced(e.fun);
    CallText(e);
    var texts := ArgumentTexts(e.args);
    forall k | 0 <= k < |texts|
      ensures Balanced(texts[k])
    {
      ExpressionBalanced(e.args[k].value);
    }
    ParenFreeBalanced(" ");
    BalancedJoin(texts, " ");
    ListTextBalanced(EmitExpression(e.fun).value, Join(texts, " "));
  }

  lemma {:induction false} BinOpBalanced(e: TypedExpr)
    requires e.BinOp? && SupportedExpr(e) && AtomsParenFree(e)
    ensures Balanced(EmitExpression(e).value)
    decreases e, 0
  {
    ExpressionBalanced(e.left);
    ExpressionBalanced(e.right);
    BinOpText(e);
    OperatorTextBalanced(OperatorName(e.op), EmitExpression(e.left).value, EmitExpression(e.right).value);
  }

  /** An operator applied to two balanced operands is balanced. */
  lemma OperatorTextBalanced(operator: string, lhs: string, rhs: string)
    requires ParenFree(operator) && Balanced(lhs) && Balanced(rhs)
    ensures Balanced("(" + operator + " " + lhs + " " + rhs + ")")
  {
    ParenFreeBalanced(" ");
    ParenFreeBalanced(operator);
    BalancedConcat(lhs, " ");
    BalancedConcat(lhs + " ", rhs);
    ListTextBalanced(operator, lhs + " " + rhs);
    assert "(" + operator + " " + lhs + " " + rhs + ")" == "(" + operator + " " + (lhs + " " + rhs) + ")";
  }

  /** Integer and float addition share Scheme's `+`: the emitter does not
      look at the numeric kind. */
  lemma AdditionKindsShareOperator(location: Ast.SrcSpan, tipe: Types.Type, left: TypedExpr, right: TypedExpr)
    ensures EmitExpression(BinOp(location, tipe, AddInt, left, right))
         == EmitExpression(BinOp(location, tipe, AddFloat, left, right))
    ensures EmitExpression(BinOp(location, tipe, AddInt, left, right)).Ok? ==>
              EmitExpression(BinOp(location, tipe, AddInt, left, right)).value
              == "(+ " + EmitExpression(left).value + " " + EmitExpression(right).value + ")"
  {
  }

  /** Integer and float subtraction share Scheme's `-`. */
  lemma SubtractionKindsShareOperator(location: Ast.SrcSpan, tipe: Types.Type, left: TypedExpr, right: TypedExpr)
    ensures EmitExpression(BinOp(location, tipe, SubInt, left, right))
         == EmitExpression(BinOp(location, tipe, SubFloat, left, right))
    ensures EmitExpression(BinOp(location, tipe, SubInt, left, right)).Ok? ==>
              EmitExpression(BinOp(location, tipe, SubInt, left, right)).value
              == "(- " + EmitExpression(left).value + " " + EmitExpression(right).value + ")"
  {
  }

  /** Renders a statement list: an expression statement is followed by one
      space and the rest; an assignment wraps the rest in its own scope. */
  function EmitStatements(stmts: seq<TypedStatement>): (r: Outcome<string>)
    ensures !r.Err?
    ensures r.Ok? <==> SupportedStatements(stmts)
    ensures stmts != [] && stmts[0].Use? ==> r == Panicked(UNREACHABLE)
    decreases |stmts|, 0
  {
    if stmts == [] then Ok("")
    else
      match stmts[0]
      case Expression(expr) =>
        var expr :- EmitExpression(expr);
        var rest :- EmitStatements(stmts[1..]);
        Ok(expr + " " + rest)
      case Assignment(assign) => EmitAssignment(assign, stmts[1..])
      case Use(_) => Panicked(UNREACHABLE)
  }

  /** Renders an assignment together with the statements after it, which
      become the body of the `let` that binds the assigned value. */
  function EmitAssignment(assign: TypedAssignment, stmts: seq<TypedStatement>): (r: Outcome<string>)
    ensures !r.Err?
    ensures r.Ok? <==> SupportedStatement(Assignment(assign)) && SupportedStatements(stmts)
    decreases |stmts|, 1
  {
    var value :- EmitExpression(assign.value);
    var rest :- EmitStatements(stmts);
    match assign.pattern
    case Variable(_, name) => Ok("(let ((" + name + " " + value + ")) (begin " + rest + "))")
    case Discard(_, _) => Ok("(let ((_ " + value + ")) (begin " + rest + "))")
    case _ => Panicked(TODO)
  }

  /** How many of the statements are assignments, each of which opens a
      `let` scope that stays open to the end of the statement list. */
  function BindingCount(stmts: seq<TypedStatement>): (n: nat)
    ensures n <= |stmts|
  {
    if stmts == [] then 0
    else BindingCount(stmts[..|stmts| - 1]) + if stmts[|stmts| - 1].Assignment? then 1 else 0
  }

  lemma BindingCountSnoc(stmts: seq<TypedStatement>, i: nat)
    requires 0 < i <= |stmts|
    ensures BindingCount(stmts[..i]) == BindingCount(stmts[..i - 1]) + if stmts[i - 1].Assignment? then 1 else 0
  {
    assert stmts[..i][..i - 1] == stmts[..i - 1];
  }

  /** The text before the value of a `let` leaves two more parentheses open
      than it found: the scope and its `begin`. */
  lemma LetOpenNesting(open: nat)
    ensures Nesting("(let ((", open) == Some(open + 3)
  {
    var v1 := "(" + "";
    var v2 := "(" + v1;
    var v3 := "let " + v2;
    assert "(let ((" == "(" + v3;
    ParenFreeNesting("", open + 3);
    NestingOpen("", open + 2);
    NestingOpen(v1, open + 1);
    NestingSkip("let ", v2, open + 1);
    NestingOpen(v3, open);
  }

  lemma LetBodyNesting(open: nat)
    ensures Nesting(")) (begin ", open + 2) == Some(open + 1)
  {
    var v1 := "(" + "begin ";
    var v2 := " " + v1;
    var v3 := ")" + v2;
    assert ")) (begin " == ")" + v3;
    ParenFreeNesting("begin ", open + 1);
    NestingOpen("begin ", open);
    NestingSkip(" ", v1, open);
    NestingClose(v2, open + 1);
    NestingClose(v3, open + 2);
  }

  lemma LetHeadNesting(binder: string, value: string, open: nat)
    requires ParenFree(binder) && Balanced(value)
    ensures Nesting("(let ((" + binder + " " + value + ")) (begin ", open) == Some(open + 2)
  {
    var before, after := "(let ((", ")) (begin ";
    var mid := binder + " " + value;
    ParenFreeBalanced(binder + " ");
    BalancedConcat(binder + " ", value);
    LetOpenNesting(open);
    BalancedNesting(mid, open + 3);
    NestingStep(before, mid, open, open + 3, open + 3);
    LetBodyNesting(open + 1);
    NestingStep(before + mid, after, open, open + 3, open + 2);
    assert "(let ((" + binder + " " + value + ")) (begin " == before + mid + after;
  }

  /** The text an assignment with a `Variable` or `Discard` pattern puts
      before the statements after it: the `let` that binds the value (to `_`
      when discarded) and the `begin` that opens its body. */
  function LetHeadText(pattern: Pattern, value: string): string
  {
    if pattern.Variable? then "(let ((" + pattern.name + " " + value + ")) (begin "
    else "(let ((_ " + value + ")) (begin "
  }

  /** The first statement of a list renders as some text before the
      rendering of the rest and, for an assignment, one pair of closers after
      it; that text opens exactly the parentheses the closers close. */
  lemma FirstStatementEncloses(stmts: seq<TypedStatement>, open: nat) returns (head: string, scopes: nat)
    requires stmts != [] && SupportedStatements(stmts) && AtomsParenFreeStatements(stmts)
    ensures scopes == if stmts[0].Assignment? then 1 else 0
    ensures EmitStatements(stmts).value == head + EmitStatements(stmts[1..]).value + Closers(scopes)
    ensures Nesting(head, open) == Some(open + 2 * scopes)
    ensures stmts[0].Expression? ==> head == EmitExpression(stmts[0].expr).value + " "
    ensures stmts[0].Assignment? ==>
              var assign := stmts[0].assignment;
              head == LetHeadText(assign.pattern, EmitExpression(assign.value).value)
  {
    assert SupportedStatement(stmts[0]) && AtomsParenFreeStatement(stmts[0]);
    var later := EmitStatements(stmts[1..]).value;
    match stmts[0]
    case Expression(expr) =>
      var x := EmitExpression(expr).value;
      head, scopes := x + " ", 0;
      assert EmitStatements(stmts).value == head + later + Closers(0);
      ExpressionBalanced(expr);
      ParenFreeBalanced(" ");
      BalancedConcat(x, " ");
      BalancedNesting(head, open);
    case Assignment(assign) =>
      assert EmitStatements(stmts) == EmitAssignment(assign, stmts[1..]);
      head := AssignmentEncloses(assign, stmts[1..], open);
      scopes := 1;
  }

  /** An assignment renders as a `let` head, the rendering of the statements
      after it, and the `))` that close the `let` and its `begin`. */
  lemma AssignmentEncloses(assign: TypedAssignment, stmts: seq<TypedStatement>, open: nat) returns (head: string)
    requires SupportedStatement(Assignment(assign)) && AtomsParenFreeStatement(Assignment(assign))
    requires SupportedStatements(stmts)
    ensures EmitAssignment(assign, stmts).value == head + EmitStatements(stmts).value + Closers(1)
    ensures Nesting(head, open) == Some(open + 2)
    ensures head == LetHeadText(assign.pattern, EmitExpression(assign.value).value)
  {
    var value := EmitExpression(assign.value).value;
    ExpressionBalanced(assign.value);
    assert Closers(1) == "))";
    head := LetHeadText(assign.pattern, value);
    if assign.pattern.Variable? {
      assert head == "(let ((" + assign.pattern.name + " " + value + ")) (begin ";
      LetHeadNesting(assign.pattern.name, value, open);
    } else {
      assert head == "(let ((_ " + value + ")) (begin ";
      DiscardHeadNesting(value, open);
    }
  }

  /** The head of a `let` that discards its value is that of a `let` binding `_`. */
  lemma DiscardHeadNesting(value: string, open: nat)
    requires Balanced(value)
    ensures Nesting("(let ((_ " + value + ")) (begin ", open) == Some(open + 2)
  {
    ParenFreeBalanced("_");
    LetHeadNesting("_", value, open);
    assert "(let ((_ " == "(let ((" + "_" + " ";
  }

  lemma SuffixSupported(stmts: seq<TypedStatement>, j: nat)
    requires j <= |stmts| && SupportedStatements(stmts) && AtomsParenFreeStatements(stmts)
    ensures SupportedStatements(stmts[j..]) && AtomsParenFreeStatements(stmts[j..])
  {
    assert forall k :: 0 <= k < |stmts| - j ==> stmts[j..][k] == stmts[j + k];
  }

  /** `FirstStatementEncloses` for the statements from index `j` on. */
  lemma StatementAtEncloses(stmts: seq<TypedStatement>, j: nat, open: nat) returns (head: string, scopes: nat)
    requires j < |stmts| && SupportedStatements(stmts) && AtomsParenFreeStatements(stmts)
    ensures scopes == if stmts[j].Assignment? then 1 else 0
    ensures EmitStatements(stmts[j..]).value == head + EmitStatements(stmts[j + 1..]).value + Closers(scopes)
    ensures Nesting(head, open) == Some(open + 2 * scopes)
  {
    var rest := stmts[j..];
    assert rest[1..] == stmts[j + 1..];
    head, scopes := FirstStatementEncloses(rest, open);
  }

  /** After the first `i` statements, the rendering of the whole list is some
      opening text, then the rendering of the remaining statements, then one
      pair of closers for each assignment among the first `i`: every
      assignment's `let` and `begin` enclose all the statements after it. */
  lemma {:induction false} BindingsEncloseRest(stmts: seq<TypedStatement>, i: nat) returns (opening: string)
    requires SupportedStatements(stmts) && AtomsParenFreeStatements(stmts) && i <= |stmts|
    ensures EmitStatements(stmts).value == opening + EmitStatements(stmts[i..]).value + Closers(BindingCount(stmts[..i]))
    ensures Nesting(opening, 0) == Some(2 * BindingCount(stmts[..i]))
    decreases i
  {
    if i == 0 {
      opening := "";
      assert stmts[..0] == [] && stmts[0..] == stmts;
    } else {
      var prefix := BindingsEncloseRest(stmts, i - 1);
      opening := EncloseOneMore(stmts, i, prefix);
    }
  }

  /** The step of `BindingsEncloseRest`: from the first `i - 1` statements
      to the first `i`. */
  lemma EncloseOneMore(stmts: seq<TypedStatement>, i: nat, prefix: string) returns (opening: string)
    requires SupportedStatements(stmts) && AtomsParenFreeStatements(stmts) && 0 < i <= |stmts|
    requires EmitStatements(stmts).value == prefix + EmitStatements(stmts[i - 1..]).value + Closers(BindingCount(stmts[..i - 1]))
    requires Nesting(prefix, 0) == Some(2 * BindingCount(stmts[..i - 1]))
    ensures EmitStatements(stmts).value == opening + EmitStatements(stmts[i..]).value + Closers(BindingCount(stmts[..i]))
    ensures Nesting(opening, 0) == Some(2 * BindingCount(stmts[..i]))
  {
    var n := BindingCount(stmts[..i - 1]);
    SuffixSupported(stmts, i - 1);
    SuffixSupported(stmts, i);
    var head, scopes := StatementAtEncloses(stmts, i - 1, 2 * n);
    BindingCountSnoc(stmts, i);
    opening := prefix + head;
    EncloseStep(EmitStatements(stmts).value, prefix, EmitStatements(stmts[i - 1..]).value, head,
                EmitStatements(stmts[i..]).value, n, scopes, BindingCount(stmts[..i]));
  }

  /** One more enclosing statement: its head joins the opening text and its
      closers join the ones after the rest. */
  lemma EncloseStep(whole: string, prefix: string, restText: string, head: string, later: string, outer: nat, inner: nat, count: nat)
    requires inner <= 1 && count == outer + inner
    requires whole == prefix + restText + Closers(outer)
    requires restText == head + later + Closers(inner)
    requires Nesting(prefix, 0) == Some(2 * outer)
    requires Nesting(head, 2 * outer) == Some(2 * outer + 2 * inner)
    ensures whole == prefix + head + later + Closers(count)
    ensures Nesting(prefix + head, 0) == Some(2 * count)
  {
    ClosersAppend(inner, outer, count);
    assert prefix + (head + later + Closers(inner)) + Closers(outer)
        == prefix + head + later + (Closers(inner) + Closers(outer));
    NestingStep(prefix, head, 0, 2 * outer, 2 * outer + 2 * inner);
  }

  /** The closers of an inner scope followed by those of the outer ones. */
  lemma ClosersAppend(inner: nat, outer: nat, count: nat)
    requires inner <= 1 && count == outer + inner
    ensures Closers(inner) + Closers(outer) == Closers(count)
  {
    if inner == 1 {
      assert Closers(inner) == "))" + Closers(0);
    }
  }

  /** With parenthesis-free names and literal texts, a rendered statement
      list is well nested: every scope an assignment opens is closed. */
  lemma StatementsBalanced(stmts: seq<TypedStatement>)
    requires SupportedStatements(stmts) && AtomsParenFreeStatements(stmts)
    ensures Balanced(EmitStatements(stmts).value)
  {
    var opening := BindingsEncloseRest(stmts, |stmts|);
    assert stmts[|stmts|..] == [];
    ClosedByClosers(EmitStatements(stmts).value, opening, EmitStatements([]).value, BindingCount(stmts[..|stmts|]));
  }

  /** Text that opens `2 * n` parentheses, followed by nothing and `n` pairs
      of closers, is balanced. */
  lemma ClosedByClosers(whole: string, opening: string, empty: string, n: nat)
    requires empty == "" && whole == opening + empty + Closers(n)
    requires Nesting(opening, 0) == Some(2 * n)
    ensures Balanced(whole)
  {
    assert whole == opening + Closers(n);
    ClosersClose(n, 0);
    NestingStep(opening, Closers(n), 0, 2 * n, 0);
  }

  /** The binding name of every parameter, discards included, in declaration order. */
  function ParameterNames(arguments: seq<Arg>): (names: seq<string>)
    ensures |names| == |arguments|
    ensures forall k :: 0 <= k < |arguments| ==> names[k] == arguments[k].names.name
  {
    seq(|arguments|, k requires 0 <= k < |arguments| => arguments[k].names.name)
  }

  /** Renders a function as a module-qualified `define` of a `lambda` whose
      body is a `begin` of the rendered statements. */
  function EmitFunctionDefinition(typedModule: TypedModule, func: TypedFunction): (r: Outcome<string>)
    ensures !r.Err?
    ensures r.Ok? <==> SupportedFunction(func)
    ensures func.name.None? ==> r == Panicked(NO_NAME)
  {
    var parameters := Join(ParameterNames(func.arguments), " ");
    if func.name.None? then Panicked(NO_NAME)
    else
      var name := typedModule.name + "." + func.name.value;
      var body :- EmitStatements(func.body);
      var body := "(begin " + body + ")";
      Ok("(define " + name + "\n  (lambda (" + parameters + ")\n    " + body + "))")
  }

  /** A supported function is rendered as `(define m.f` on its first line,
      `(lambda (P)` on the second, with P the parameters' binding names
      separated by single spaces, and the statements' text in a `begin` on
      the third. */
  lemma DefinitionText(typedModule: TypedModule, func: TypedFunction)
    requires SupportedFunction(func)
    ensures EmitFunctionDefinition(typedModule, func)
         == Ok("(define " + typedModule.name + "." + func.name.value
               + "\n  (lambda (" + Join(ParameterNames(func.arguments), " ")
               + ")\n    (begin " + EmitStatements(func.body).value + ")))")
  {
    var name := typedModule.name + "." + func.name.value;
    var parameters := Join(ParameterNames(func.arguments), " ");
    var body := EmitStatements(func.body).value;
    var prefix := "(define " + name + "\n  (lambda (" + parameters;
    assert prefix == "(define " + typedModule.name + "." + func.name.value + "\n  (lambda (" + parameters;
    assert ")\n    " + ("(begin " + body + ")") + "))" == ")\n    (begin " + body + ")))";
    assert EmitFunctionDefinition(typedModule, func).value
        == prefix + (")\n    " + ("(begin " + body + ")") + "))");
    assert prefix + (")\n    (begin " + body + ")))") == prefix + ")\n    (begin " + body + ")))";
  }

  lemma BeginTextBalanced(statements: string)
    requires Balanced(statements)
    ensures Balanced("(begin " + statements + ")")
  {
    ParenFreeBalanced("begin");
    ListTextBalanced("begin", statements);
    assert "(begin " + statements + ")" == "(" + "begin" + " " + statements + ")";
  }

  /** The pieces of the `define` frame, read at any depth. */
  lemma DefineOpenNesting(open: nat)
    ensures Nesting("(define ", open) == Some(open + 1)
  {
    assert "(define " == "(" + "define ";
    ParenFreeNesting("define ", open + 1);
    NestingOpen("define ", open);
  }

  lemma LambdaOpenNesting(open: nat)
    ensures Nesting("\n  (lambda (", open) == Some(open + 2)
  {
    var t := "(" + "";
    var u := "lambda " + t;
    var v := "(" + u;
    assert "\n  (lambda (" == "\n  " + v;
    ParenFreeNesting("", open + 2);
    NestingOpen("", open + 1);
    NestingSkip("lambda ", t, open + 1);
    NestingOpen(u, open);
    NestingSkip("\n  ", v, open);
  }

  lemma ParametersCloseNesting(open: nat)
    requires open > 0
    ensures Nesting(")\n    ", open) == Some(open - 1)
  {
    assert ")\n    " == ")" + "\n    ";
    ParenFreeNesting("\n    ", open - 1);
    NestingClose("\n    ", open);
  }

  lemma DefineCloseNesting(open: nat)
    ensures Nesting("))", open + 2) == Some(open)
  {
    var c := ")" + "";
    assert "))" == ")" + c;
    ParenFreeNesting("", open);
    NestingClose("", open + 1);
    NestingClose(c, open + 2);
  }

  /** Text made of frame pieces that step the depth from `open` to `open + 1`,
      `open + 3`, `open + 2` and back to `open` around three balanced parts
      leaves the depth where it found it. */
  lemma FrameChain(p1: string, x1: string, p2: string, x2: string, p3: string, x3: string, p4: string, open: nat)
    requires Nesting(p1, open) == Some(open + 1) && Nesting(p2, open + 1) == Some(open + 3)
    requires Nesting(p3, open + 3) == Some(open + 2) && Nesting(p4, open + 2) == Some(open)
    requires Balanced(x1) && Balanced(x2) && Balanced(x3)
    ensures Nesting(p1 + x1 + p2 + x2 + p3 + x3 + p4, open) == Some(open)
  {
    BalancedNesting(x1, open + 1);
    NestingStep(p1, x1, open, open + 1, open + 1);
    NestingStep(p1 + x1, p2, open, open + 1, open + 3);
    BalancedNesting(x2, open + 3);
    NestingStep(p1 + x1 + p2, x2, open, open + 3, open + 3);
    NestingStep(p1 + x1 + p2 + x2, p3, open, open + 3, open + 2);
    BalancedNesting(x3, open + 2);
    NestingStep(p1 + x1 + p2 + x2 + p3, x3, open, open + 2, open + 2);
    NestingStep(p1 + x1 + p2 + x2 + p3 + x3, p4, open, open + 2, open);
  }

  /** Read from the left, the `define` text steps the depth up by 1, 3, 2
      and back to where it started around its balanced parts. */
  lemma DefineTextNesting(name: string, parameters: string, body: string, open: nat)
    requires Balanced(name) && Balanced(parameters) && Balanced(body)
    ensures Nesting("(define " + name + "\n  (lambda (" + parameters + ")\n    " + body + "))", open) == Some(open)
  {
    DefineOpenNesting(open);
    LambdaOpenNesting(open + 1);
    ParametersCloseNesting(open + 3);
    DefineCloseNesting(open);
    FrameChain("(define ", name, "\n  (lambda (", parameters, ")\n    ", body, "))", open);
  }

  lemma DefineTextBalanced(name: string, parameters: string, body: string)
    requires Balanced(name) && Balanced(parameters) && Balanced(body)
    ensures Balanced("(define " + name + "\n  (lambda (" + parameters + ")\n    " + body + "))")
  {
    DefineTextNesting(name, parameters, body, 0);
  }

  /** With parenthesis-free names and literal texts, a rendered function
      definition is one well-nested s-expression. */
  lemma FunctionDefinitionBalanced(typedModule: TypedModule, func: TypedFunction)
    requires SupportedFunction(func) && AtomsParenFreeFunction(typedModule, func)
    ensures Balanced(EmitFunctionDefinition(typedModule, func).value)
  {
    var names := ParameterNames(func.arguments);
    forall k | 0 <= k < |names|
      ensures Balanced(names[k])
    {
      ParenFreeBalanced(names[k]);
    }
    ParenFreeBalanced(" ");
    BalancedJoin(names, " ");
    ParenFreeBalanced(typedModule.name + ".");
    ParenFreeBalanced(func.name.value);
    BalancedConcat(typedModule.name + ".", func.name.value);
    StatementsBalanced(func.body);
    BeginTextBalanced(EmitStatements(func.body).value);
    DefineTextBalanced(typedModule.name + "." + func.name.value, Join(names, " "), "(begin " + EmitStatements(func.body).value + ")");
  }

  /** The parameter list of a rendered function, read back by cutting it at
      its spaces, gives every parameter's binding name, discards included, in
      declaration order (binding names hold no spaces). */
  lemma ParametersInDeclarationOrder(typedModule: TypedModule, func: TypedFunction) returns (parameters: string)
    requires SupportedFunction(func)
    requires forall k :: 0 <= k < |func.arguments| ==> IsWord(func.arguments[k].names.name)
    ensures "(define " + typedModule.name + "." + func.name.value + "\n  (lambda (" + parameters + ")"
            <= EmitFunctionDefinition(typedModule, func).value
    ensures Split(parameters) == ParameterNames(func.arguments)
    ensures |Split(parameters)| == |func.arguments|
  {
    parameters := Join(ParameterNames(func.arguments), " ");
    SplitJoin(ParameterNames(func.arguments));
  }

  /** The first line of every emitted module: loading the runtime prelude. */
  function Header(prelude: string): string
  {
    "(load \"" + prelude + "\")"
  }

  function EmitDefinition(typedModule: TypedModule, definition: Definition): (r: Outcome<string>)
    ensures !r.Err?
    ensures r.Ok? <==> SupportedDefinition(definition)
  {
    match definition
    case Function(func) => EmitFunctionDefinition(typedModule, func)
    case _ => Panicked(TODO)
  }

  /** The text the definitions add after the header: each rendered definition
      followed by a newline, in source order; the first failure ends it. */
  function DefinitionsCode(typedModule: TypedModule, definitions: seq<Definition>): (r: Outcome<string>)
    ensures !r.Err?
    ensures r.Ok? <==> forall k :: 0 <= k < |definitions| ==> SupportedDefinition(definitions[k])
    decreases |definitions|
  {
    if definitions == [] then Ok("")
    else
      var done :- DefinitionsCode(typedModule, definitions[..|definitions| - 1]);
      var next :- EmitDefinition(typedModule, definitions[|definitions| - 1]);
      Ok(done + next + "\n")
  }

  /** The whole module's text: the prelude header, then every definition. */
  function ModuleCode(prelude: string, typedModule: TypedModule): (r: Outcome<string>)
    ensures !r.Err?
    ensures r.Ok? <==> forall k :: 0 <= k < |typedModule.definitions| ==> SupportedDefinition(typedModule.definitions[k])
    ensures r.Ok? ==> Header(prelude) <= r.value
  {
    var definitions :- DefinitionsCode(typedModule, typedModule.definitions);
    Ok(Header(prelude) + definitions)
  }

  lemma {:induction false} DefinitionsFailurePersists(typedModule: TypedModule, definitions: seq<Definition>, i: nat)
    requires i <= |definitions|
    requires !DefinitionsCode(typedModule, definitions[..i]).Ok?
    ensures DefinitionsCode(typedModule, definitions) == DefinitionsCode(typedModule, definitions[..i])
    decreases |definitions| - i
  {
    if i < |definitions| {
      var longer := definitions[..i + 1];
      assert longer[..|longer| - 1] == definitions[..i];
      DefinitionsFailurePersists(typedModule, definitions, i + 1);
    } else {
      assert definitions[..i] == definitions;
    }
  }

  ghost predicate AtomsParenFreeDefinitions(typedModule: TypedModule, definitions: seq<Definition>)
  {
    forall k :: 0 <= k < |definitions| ==>
      definitions[k].Function? ==> AtomsParenFreeFunction(typedModule, definitions[k].func)
  }

  lemma {:induction false} DefinitionsBalanced(typedModule: TypedModule, definitions: seq<Definition>)
    requires forall k :: 0 <= k < |definitions| ==> SupportedDefinition(definitions[k])
    requires AtomsParenFreeDefinitions(typedModule, definitions)
    ensures Balanced(DefinitionsCode(typedModule, definitions).value)
    decreases |definitions|
  {
    if definitions == [] {
      ParenFreeBalanced("");
    } else {
      var last := |definitions| - 1;
      var earlier := definitions[..last];
      assert forall k :: 0 <= k < |earlier| ==> earlier[k] == definitions[k];
      DefinitionsBalanced(typedModule, earlier);
      FunctionDefinitionBalanced(typedModule, definitions[last].func);
      var done := DefinitionsCode(typedModule, earlier).value;
      var next := EmitDefinition(typedModule, definitions[last]).value;
      ParenFreeBalanced("\n");
      BalancedConcat(done, next);
      BalancedConcat(done + next, "\n");
    }
  }

  /** The `load` header closes the one parenthesis it opens. */
  lemma HeaderNesting(prelude: string, open: nat)
    requires ParenFree(prelude)
    ensures Nesting(Header(prelude), open) == Some(open)
  {
    var inner := "load \"" + prelude + "\"";
    var close := ")" + "";
    assert Header(prelude) == "(" + (inner + close);
    ParenFreeNesting("", open);
    NestingClose("", open + 1);
    ParenFreeNesting(inner, open + 1);
    NestingStep(inner, close, open + 1, open + 1, open);
    NestingOpen(inner + close, open);
  }

  lemma HeaderBalanced(prelude: string)
    requires ParenFree(prelude)
    ensures Balanced(Header(prelude))
  {
    HeaderNesting(prelude, 0);
  }

  /** With a parenthesis-free prelude path, names and literal texts, the
      emitted module is well nested: the header and every definition close
      all they open. */
  lemma ModuleBalanced(prelude: string, typedModule: TypedModule)
    requires forall k :: 0 <= k < |typedModule.definitions| ==> SupportedDefinition(typedModule.definitions[k])
    requires ParenFree(prelude) && AtomsParenFreeDefinitions(typedModule, typedModule.definitions)
    ensures Balanced(ModuleCode(prelude, typedModule).value)
  {
    HeaderBalanced(prelude);
    DefinitionsBalanced(typedModule, typedModule.definitions);
    BalancedConcat(Header(prelude), DefinitionsCode(typedModule, typedModule.definitions).value);
  }

  /** One more definition: its text is appended, or its failure ends the module. */
  lemma DefinitionsCodeSnoc(typedModule: TypedModule, definitions: seq<Definition>, i: nat)
    requires i < |definitions|
    requires DefinitionsCode(typedModule, definitions[..i]).Ok?
    ensures var next := EmitDefinition(typedModule, definitions[i]);
            DefinitionsCode(typedModule, definitions[..i + 1])
            == if next.Ok? then Ok(DefinitionsCode(typedModule, definitions[..i]).value + next.value + "\n") else next
  {
    assert definitions[..i + 1][..i] == definitions[..i];
  }

  /** Appending to the code one piece at a time builds the same text as
      appending the pieces' concatenation. */
  lemma AppendRegroups(header: string, done: string, next: string, newline: string)
    ensures header + done + next + newline == header + (done + next + newline)
  {
  }

  /** Emits a module by appending each definition to a growing string. The
      prelude path is the `prelude.scm` beside the output directory, given
      here as text. */
  method EmitModule(prelude: string, typedModule: TypedModule) returns (r: Outcome<string>)
    ensures r == ModuleCode(prelude, typedModule)
  {
    var code := Header(prelude);
    var definitions := typedModule.definitions;
    for i := 0 to |definitions|
      invariant DefinitionsCode(typedModule, definitions[..i]).Ok?
      invariant code == Header(prelude) + DefinitionsCode(typedModule, definitions[..i]).value
    {
      DefinitionsCodeSnoc(typedModule, definitions, i);
      match definitions[i]
      case Function(func) =>
        var definition := EmitFunctionDefinition(typedModule, func);
        if !definition.Ok? {
          r := definition;
          DefinitionsFailurePersists(typedModule, definitions, i + 1);
          return;
        }
        assert EmitDefinition(typedModule, definitions[i]) == definition;
        ghost var done := DefinitionsCode(typedModule, definitions[..i]).value;
        code := code + definition.value;
        code := code + "\n";
        AppendRegroups(Header(prelude), done, definition.value, "\n");
      case _ =>
        r := Panicked(TODO);
        assert EmitDefinition(typedModule, definitions[i]) == r;
        DefinitionsFailurePersists(typedModule, definitions, i + 1);
        return;
    }
    assert definitions[..|definitions|] == definitions;
    r := Ok(code);
  }
}

=== FILE: pipe.dfy ===
// The pipe typer: types a chain `a |> f |> g(x) |> ...` and rewrites it into
// a `Pipeline` node, a series of assignments to the synthetic variable
// `_pipe` followed by one final expression. Type inference, call inference
// and unification belong to the rest of the type checker; here they are the
// functions of an `Oracle`, which see the scope but neither change it nor
// report problems of their own.

module Pipe {
  import opened Wrappers
  import opened Ast
  import Types
  import T = TypedAst
  import U = UntypedAst

  // ---------------------------------------------------------------------
  // What the pipe typer sees of the type checker

  datatype ScopeEntry = ScopeEntry(location: SrcSpan, origin: T.VariableOrigin, tipe: Types.Type)

  /** The local variables in scope, by name. */
  type Scope = map<string, ScopeEntry>

  datatype UnifyErrorSituation = PipeTypeMismatch

  datatype Error =
    | InferenceError(code: nat)
      /** A failed unification, reported at `location`; `flipped` when the
          expected and given types were swapped before reporting. */
    | UnifyProblem(error: Types.UnifyError, location: SrcSpan, flipped: bool, situation: Option<UnifyErrorSituation>)

  datatype Warning = RedundantPipeFunctionCapture(location: SrcSpan)

  datatype Problem = ErrorProblem(error: Error) | WarningProblem(warning: Warning)

  datatype InferResult = Inferred(expr: T.TypedExpr) | Failed(error: Error)

  /** What call inference returns: the typed callee, the typed arguments and
      the type of the call. */
  datatype CallInference = CallInference(fun: T.TypedExpr, args: seq<T.CallArg>, returnType: Types.Type)

  /** The collaborators of the pipe typer. `fnArity` is the number of
      parameters of a function type (after following type-variable links),
      `unify` returns the error of a failed unification. */
  datatype Oracle = Oracle(
    infer: (U.UntypedExpr, Scope) -> InferResult,
    inferCall: (U.UntypedExpr, seq<U.CallArg>, SrcSpan, Scope) -> CallInference,
    inferCallWithKnownFun: (T.TypedExpr, seq<U.CallArg>, SrcSpan, Scope) -> CallInference,
    fnArity: Types.Type -> Option<nat>,
    unify: (Types.Type, Types.Type) -> Option<Types.UnifyError>)

  /** The parts of the expression typer the pipe typer uses: the scope of the
      environment, the problems log and the supply of fresh type variables. */
  class ExprTyper {
    const oracle: Oracle
    var scope: Scope
    var problems: seq<Problem>
    var nextVarId: nat

    constructor (oracle: Oracle, scope: Scope)
      ensures this.oracle == oracle && this.scope == scope
      ensures problems == [] && nextVarId == 0
    {
      this.oracle := oracle;
      this.scope := scope;
      problems := [];
      nextVarId := 0;
    }

    method NewUnboundVar() returns (t: Types.Type)
      modifies this
      ensures t == Types.Var(old(nextVarId)) && nextVarId == old(nextVarId) + 1
      ensures scope == old(scope) && problems == old(problems)
    {
      t := Types.Var(nextVarId);
      nextVarId := nextVarId + 1;
    }

    method ReportError(error: Error)
      modifies this
      ensures problems == old(problems) + [ErrorProblem(error)]
      ensures scope == old(scope) && nextVarId == old(nextVarId)
    {
      problems := problems + [ErrorProblem(error)];
    }

    method ReportWarning(warning: Warning)
      modifies this
      ensures problems == old(problems) + [WarningProblem(warning)]
      ensures scope == old(scope) && nextVarId == old(nextVarId)
    {
      problems := problems + [WarningProblem(warning)];
    }

    method InsertLocalVariable(name: string, location: SrcSpan, origin: T.VariableOrigin, tipe: Types.Type)
      modifies this
      ensures scope == old(scope)[name := ScopeEntry(location, origin, tipe)]
      ensures problems == old(problems) && nextVarId == old(nextVarId)
    {
      scope := scope[name := ScopeEntry(location, origin, tipe)];
    }

    /** Infers `expr`; when inference fails, logs the error and stands in an
        `Invalid` expression at `location` with a fresh unbound type, so that
        typing can go on. */
    method InferOrInvalid(expr: U.UntypedExpr, location: SrcSpan) returns (r: T.TypedExpr)
      modifies this
      ensures scope == old(scope)
      ensures r == InferredOrInvalid(oracle, old(scope), old(nextVarId), expr, location)
      ensures match oracle.infer(expr, old(scope))
              case Inferred(_) => problems == old(problems) && nextVarId == old(nextVarId)
              case Failed(error) => nextVarId == old(nextVarId) + 1 && problems == old(problems) + [ErrorProblem(error)]
    {
      match oracle.infer(expr, scope)
      case Inferred(e) =>
        r := e;
      case Failed(error) =>
        ReportError(error);
        var tipe := NewUnboundVar();
        r := T.TypedExpr.Invalid(location, tipe);
    }
  }

  // ---------------------------------------------------------------------
  // The pure rules

  /** What the pipe typer makes of `expr`: its typed form or, when inference
      fails, an `Invalid` expression at `location` whose type is the fresh
      type variable `nextId`. */
  function InferredOrInvalid(oracle: Oracle, scope: Scope, nextId: nat, expr: U.UntypedExpr, location: SrcSpan): T.TypedExpr
  {
    match oracle.infer(expr, scope)
    case Inferred(e) => e
    case Failed(_) => T.TypedExpr.Invalid(location, Types.Var(nextId))
  }

  /** The variable that refers to the value on the left of the pipe. */
  function LeftHandVariable(argumentLocation: SrcSpan): U.UntypedExpr
  {
    U.Var(argumentLocation, PIPE_VARIABLE)
  }

  /** The call argument that passes the value on the left of the pipe: it has
      no label and is marked as given implicitly by the pipe. */
  function LeftHandArgument(argumentLocation: SrcSpan): (arg: U.CallArg)
    ensures arg.argLabel.None? && arg.implicit == Some(ImplicitCallArgOrigin.Pipe)
    ensures arg.value.Var? && arg.value.name == PIPE_VARIABLE && !U.IsCaptureHole(arg)
  {
    U.CallArg(None, argumentLocation, LeftHandVariable(argumentLocation), Some(ImplicitCallArgOrigin.Pipe))
  }

  /** The typed variable for the value on the left of the pipe: a generated
      local variable of the left-hand type, declared at the left-hand value. */
  function TypedLeftHandVariable(argumentType: Types.Type, argumentLocation: SrcSpan): T.TypedExpr
  {
    T.TypedExpr.Var(
      argumentLocation,
      PIPE_VARIABLE,
      T.ValueConstructor(
        T.Public, T.NotDeprecated, argumentType,
        T.LocalVariable(argumentLocation, T.Generated)))
  }

  function TypedLeftHandArgument(argumentType: Types.Type, argumentLocation: SrcSpan): (arg: T.CallArg)
    ensures arg.argLabel.None? && arg.implicit == Some(ImplicitCallArgOrigin.Pipe)
    ensures arg.value.Var? && arg.value.name == PIPE_VARIABLE
    ensures T.TypeOf(arg.value) == argumentType && arg.value.location == argumentLocation
  {
    T.CallArg(None, argumentLocation, TypedLeftHandVariable(argumentType, argumentLocation), Some(ImplicitCallArgOrigin.Pipe))
  }

  /** The call node built from what call inference returned. */
  function CallOf(inference: CallInference, location: SrcSpan): T.TypedExpr
  {
    T.TypedExpr.Call(location, inference.returnType, inference.fun, inference.args)
  }

  /** The arguments of `right(left, ..arguments)`: the pipe argument first,
      then the explicit arguments in their order. */
  function InsertPipeArgument(pipeArgument: U.CallArg, arguments: seq<U.CallArg>): (r: seq<U.CallArg>)
    ensures |r| == |arguments| + 1 && r[0] == pipeArgument
    ensures forall k :: 0 <= k < |arguments| ==> r[k + 1] == arguments[k]
  {
    [pipeArgument] + arguments
  }

  /** A unification failure is reported as a pipe type mismatch only when two
      function types with the same number of parameters could not be unified
      and their first parameters do not unify. */
  function IsPipeTypeMismatch(unify: (Types.Type, Types.Type) -> Option<Types.UnifyError>, error: Types.UnifyError): (r: bool)
    ensures r <==>
      error.CouldNotUnify? && error.expected.Fn? && error.given.Fn?
      && |error.expected.args| == |error.given.args| && |error.expected.args| > 0
      && unify(error.expected.args[0], error.given.args[0]).Some?
  {
    match error
    case CouldNotUnify(expected, given) =>
      if expected.Fn? && given.Fn? && |expected.args| == |given.args| then
        if |expected.args| > 0 && |given.args| > 0 then
          unify(expected.args[0], given.args[0]).Some?
        else false
      else false
    case _ => false
  }

  /** The location of the redundant capture hole when `call` is a function
      capture whose body starts with a call whose first argument is the
      unlabelled hole, as in `x |> f(_, y)`. */
  function RedundantCaptureHole(call: U.UntypedExpr): (r: Option<SrcSpan>)
    ensures r.Some? <==>
      call.Fn? && call.kind.Capture? && |call.body| > 0
      && call.body[0].Expression? && call.body[0].expr.Call?
      && |call.body[0].expr.arguments| > 0
      && U.IsCaptureHole(call.body[0].expr.arguments[0])
      && call.body[0].expr.arguments[0].argLabel.None?
    ensures r.Some? ==> r.value == call.body[0].expr.arguments[0].location
  {
    if call.Fn? && call.kind.Capture? && |call.body| > 0 then
      match call.body[0]
      case Expression(Call(_, _, arguments)) =>
        if |arguments| > 0 && U.IsCaptureHole(arguments[0]) && arguments[0].argLabel.None? then
          Some(arguments[0].location)
        else None
      case _ => None
    else None
  }

  /** `left |> fun(..arguments)` as `fun(..arguments)(left)`: the explicit
      arguments are typed against the callee, and the resulting call is
      called with the pipe variable as its only argument. */
  function InferApplyToCallPipe(oracle: Oracle, scope: Scope, argumentLocation: SrcSpan,
                                fun: T.TypedExpr, arguments: seq<U.CallArg>, location: SrcSpan): (r: T.TypedExpr)
    ensures r.Call? && r.location == location
    ensures var inner := oracle.inferCallWithKnownFun(fun, arguments, location, scope);
            r == CallOf(oracle.inferCallWithKnownFun(CallOf(inner, location), [LeftHandArgument(argumentLocation)], location, scope),
                        location)
  {
    var inner := oracle.inferCallWithKnownFun(fun, arguments, location, scope);
    var callee := CallOf(inner, location);
    var args := [LeftHandArgument(argumentLocation)];
    CallOf(oracle.inferCallWithKnownFun(callee, args, location, scope), location)
  }

  /** `left |> fun(..arguments)` as `fun(left, ..arguments)`. */
  function InferInsertPipe(oracle: Oracle, scope: Scope, argumentLocation: SrcSpan,
                           fun: T.TypedExpr, arguments: seq<U.CallArg>, location: SrcSpan): (r: T.TypedExpr)
    ensures r.Call? && r.location == location
    ensures r == CallOf(oracle.inferCallWithKnownFun(fun, InsertPipeArgument(LeftHandArgument(argumentLocation), arguments), location, scope),
                        location)
  {
    var arguments := InsertPipeArgument(LeftHandArgument(argumentLocation), arguments);
    CallOf(oracle.inferCallWithKnownFun(fun, arguments, location, scope), location)
  }

  /** The warning logged before typing `call` as a stage: one at the capture
      hole `RedundantCaptureHole` finds, if any. */
  function HoleWarnings(call: U.UntypedExpr): seq<Problem>
  {
    match RedundantCaptureHole(call)
    case Some(location) => [WarningProblem(RedundantPipeFunctionCapture(location))]
    case None => []
  }

  /** The error logged when inferring `expr` fails. */
  function InferProblems(oracle: Oracle, scope: Scope, expr: U.UntypedExpr): seq<Problem>
  {
    match oracle.infer(expr, scope)
    case Inferred(_) => []
    case Failed(error) => [ErrorProblem(error)]
  }

  /** The error logged when the callee's type does not unify with the
      expected function type: a pipe type mismatch when `IsPipeTypeMismatch`
      says so, and the error with its types flipped otherwise. */
  function UnifyProblems(oracle: Oracle, callee: T.TypedExpr, expected: Types.Type): seq<Problem>
  {
    var unified := oracle.unify(T.TypeOf(callee), expected);
    if unified.None? then []
    else if IsPipeTypeMismatch(oracle.unify, unified.value) then
      [ErrorProblem(UnifyProblem(unified.value, callee.location, false, Some(PipeTypeMismatch)))]
    else
      [ErrorProblem(UnifyProblem(unified.value, callee.location, true, None))]
  }

  /** The problems typing a stage after the first logs, in order, with the
      same inputs as `StageRewrite`: none for a function literal, the failed
      inference of a call's callee, and for anything else the failed
      inference of the stage and the failed unification of its type with
      `fn(left-hand type) -> fresh`. */
  function StageProblems(oracle: Oracle, scope: Scope, nextId: nat, argumentType: Types.Type, argumentLocation: SrcSpan,
                         stage: U.UntypedExpr): (r: seq<Problem>)
    ensures stage.Fn? ==> r == []
    ensures |r| <= 2
  {
    match stage
    case Fn(_, _, _) => []
    case Call(_, fun, _) => InferProblems(oracle, scope, fun)
    case _ =>
      var callee := InferredOrInvalid(oracle, scope, nextId, stage, stage.location);
      var used := if oracle.infer(stage, scope).Failed? then 1 else 0;
      InferProblems(oracle, scope, stage) + UnifyProblems(oracle, callee, Types.Fn([argumentType], Types.Var(nextId + used)))
  }

  /** The call a stage after the first becomes, typed in `scope` with `nextId`
      the next fresh type variable and the value on the left of the given type
      and location. A function literal is call-inferred with the pipe argument
      alone; a call is rewritten as `fun(..args)(left)` when its callee (or the
      `Invalid` standing in for it) is a function of exactly as many
      parameters as there are explicit arguments, and as `fun(left, ..args)`
      otherwise; anything else is called with the typed pipe variable as its
      only argument, at a fresh return type. */
  function StageRewrite(oracle: Oracle, scope: Scope, nextId: nat, argumentType: Types.Type, argumentLocation: SrcSpan,
                        stage: U.UntypedExpr): (r: T.TypedExpr)
    ensures r.Call?
    ensures !stage.Fn? && !stage.Call? ==>
              r.args == [TypedLeftHandArgument(argumentType, argumentLocation)]
              && r.tipe.Var? && nextId <= r.tipe.id <= nextId + 1
  {
    match stage
    case Fn(location, _, _) =>
      CallOf(oracle.inferCall(stage, [LeftHandArgument(argumentLocation)], location, scope), location)
    case Call(location, fun, arguments) =>
      var callee := InferredOrInvalid(oracle, scope, nextId, fun, location);
      if oracle.fnArity(T.TypeOf(callee)) == Some(|arguments|) then
        InferApplyToCallPipe(oracle, scope, argumentLocation, callee, arguments, location)
      else
        InferInsertPipe(oracle, scope, argumentLocation, callee, arguments, location)
    case _ =>
      var callee := InferredOrInvalid(oracle, scope, nextId, stage, stage.location);
      var used := if oracle.infer(stage, scope).Failed? then 1 else 0;
      T.TypedExpr.Call(callee.location, Types.Var(nextId + used), callee, [TypedLeftHandArgument(argumentType, argumentLocation)])
  }

  /** `scope` with `_pipe` bound to `value`, as after pushing it. */
  function PipeScope(scope: Scope, value: T.TypedExpr): (r: Scope)
    ensures PIPE_VARIABLE in r && r[PIPE_VARIABLE] == ScopeEntry(value.location, T.Generated, T.TypeOf(value))
  {
    scope[PIPE_VARIABLE := ScopeEntry(value.location, T.Generated, T.TypeOf(value))]
  }

  /** The value stage `k + 1` of a pipeline became: the value of the next
      assignment, or the final expression after the last one. */
  function StageValue(assignments: seq<T.PipelineAssignment>, finally: T.TypedExpr, k: nat): T.TypedExpr
    requires k < |assignments|
  {
    if k + 1 < |assignments| then assignments[k + 1].value else finally
  }

  /** Every stage after the first, `stages[k]`, became `StageValue(.., k)` as
      `StageRewrite` says, typed with `_pipe` bound to the value of the k-th
      assignment and `varIds[k]` the next fresh type variable at that point. */
  ghost predicate StagesRewritten(oracle: Oracle, scope: Scope, stages: seq<U.UntypedExpr>,
                                  assignments: seq<T.PipelineAssignment>, finally: T.TypedExpr, varIds: seq<nat>)
  {
    |assignments| == |stages| == |varIds|
    && forall k :: 0 <= k < |stages| ==>
         var left := assignments[k].value;
         StageValue(assignments, finally, k)
           == StageRewrite(oracle, PipeScope(scope, left), varIds[k], T.TypeOf(left), left.location, stages[k])
  }

  /** What typing the first `n` stages after the first logs, in order: for
      each, its capture-hole warning and then its `StageProblems`, with the
      same inputs as in `StagesRewritten`. */
  function StagesProblems(oracle: Oracle, scope: Scope, stages: seq<U.UntypedExpr>,
                          assignments: seq<T.PipelineAssignment>, varIds: seq<nat>, n: nat): seq<Problem>
    requires n <= |stages| && n <= |assignments| && n <= |varIds|
  {
    if n == 0 then []
    else
      var left := assignments[n - 1].value;
      StagesProblems(oracle, scope, stages, assignments, varIds, n - 1)
      + HoleWarnings(stages[n - 1])
      + StageProblems(oracle, PipeScope(scope, left), varIds[n - 1], T.TypeOf(left), left.location, stages[n - 1])
  }

  /** The problems of the first `n` stages depend only on the first `n`
      assignments and fresh variables. */
  lemma {:induction false} StagesProblemsPrefix(oracle: Oracle, scope: Scope, stages: seq<U.UntypedExpr>,
                                                assignments: seq<T.PipelineAssignment>, varIds: seq<nat>,
                                                assignments': seq<T.PipelineAssignment>, varIds': seq<nat>, n: nat)
    requires n <= |stages| && n <= |assignments| && n <= |varIds| && n <= |assignments'| && n <= |varIds'|
    requires assignments[..n] == assignments'[..n] && varIds[..n] == varIds'[..n]
    ensures StagesProblems(oracle, scope, stages, assignments, varIds, n)
         == StagesProblems(oracle, scope, stages, assignments', varIds', n)
  {
    if n > 0 {
      assert assignments[n - 1] == assignments[..n][n - 1] && assignments'[n - 1] == assignments'[..n][n - 1];
      assert varIds[n - 1] == varIds[..n][n - 1] && varIds'[n - 1] == varIds'[..n][n - 1];
      assert assignments[..n - 1] == assignments[..n][..n - 1] && assignments'[..n - 1] == assignments'[..n][..n - 1];
      assert varIds[..n - 1] == varIds[..n][..n - 1] && varIds'[..n - 1] == varIds'[..n][..n - 1];
      StagesProblemsPrefix(oracle, scope, stages, assignments, varIds, assignments', varIds', n - 1);
    }
  }

  /** One more stage: typing stage `n` with `_pipe` bound to the n-th
      assignment and `varId` as the next fresh type variable logs its
      problems after those of the stages before. Later assignments do not
      change what the earlier stages logged. */
  lemma StagesProblemsSnoc(oracle: Oracle, scope: Scope, stages: seq<U.UntypedExpr>,
                           assignments: seq<T.PipelineAssignment>, varIds: seq<nat>,
                           assignments': seq<T.PipelineAssignment>, varId: nat, n: nat)
    requires n < |stages| && n < |assignments| && n == |varIds| && assignments <= assignments'
    ensures var left := assignments[n].value;
            StagesProblems(oracle, scope, stages, assignments', varIds + [varId], n + 1)
            == StagesProblems(oracle, scope, stages, assignments, varIds, n) + HoleWarnings(stages[n])
               + StageProblems(oracle, PipeScope(scope, left), varId, T.TypeOf(left), left.location, stages[n])
  {
    var varIds' := varIds + [varId];
    assert assignments[..n] == assignments'[..n] && assignments'[n] == assignments[n];
    assert varIds[..n] == varIds'[..n] && varIds'[n] == varId;
    StagesProblemsPrefix(oracle, scope, stages, assignments, varIds, assignments', varIds', n);
    var left := assignments[n].value;
    assert StagesProblems(oracle, scope, stages, assignments', varIds', n + 1)
        == StagesProblems(oracle, scope, stages, assignments', varIds', n) + HoleWarnings(stages[n])
           + StageProblems(oracle, PipeScope(scope, left), varId, T.TypeOf(left), left.location, stages[n]);
  }

  /** A scope that differs from `scope` at most in `_pipe`, where it holds
      the entry for `value`, is `PipeScope(scope, value)`. */
  lemma PipeBound(scope: Scope, current: Scope, value: T.TypedExpr)
    requires PIPE_VARIABLE in current && current == scope[PIPE_VARIABLE := current[PIPE_VARIABLE]]
    requires current[PIPE_VARIABLE] == ScopeEntry(value.location, T.Generated, T.TypeOf(value))
    ensures current == PipeScope(scope, value)
  {
  }

  /** Binding `_pipe` again keeps a scope within `_pipe` of `scope`. */
  lemma PipeRebound(scope: Scope, current: Scope, entry: ScopeEntry)
    requires PIPE_VARIABLE in current && current == scope[PIPE_VARIABLE := current[PIPE_VARIABLE]]
    ensures current[PIPE_VARIABLE := entry] == scope[PIPE_VARIABLE := entry]
  {
  }

  /** The fresh type-variable counters recorded for the stages, in the order
      the stages were typed: they never decrease, and each lies between the
      counter `low` before the first stage and `high` after the last. */
  ghost predicate VarIdsWithin(varIds: seq<nat>, low: nat, high: nat)
  {
    && (forall k :: 0 <= k < |varIds| ==> low <= varIds[k] <= high)
    && (forall j, k :: 0 <= j < k < |varIds| ==> varIds[j] <= varIds[k])
  }

  /** Recording the current counter, then letting it grow, keeps `VarIdsWithin`. */
  lemma VarIdsWithinStep(varIds: seq<nat>, low: nat, counter: nat, high: nat)
    requires VarIdsWithin(varIds, low, counter) && low <= counter <= high
    ensures VarIdsWithin(varIds + [counter], low, high)
  {
  }

  /** What the loop over the stages has done after typing the first `i`
      stages after the first, starting from `scope` and the log `initial`:
      each typed stage but the last is the next assignment and the last is
      `result`; each is `StageRewrite` of its stage against the assignment
      before it; and the log holds their problems in order. */
  ghost predicate StagesTyped(oracle: Oracle, scope: Scope, initial: seq<Problem>, stages: seq<U.UntypedExpr>, i: nat,
                              varIds: seq<nat>, assignments: seq<T.PipelineAssignment>, problems: seq<Problem>,
                              result: Option<T.TypedExpr>)
  {
    && i <= |stages| && |varIds| == i
    && |assignments| == 1 + i - (if result.Some? then 1 else 0)
    && StagesAssigned(oracle, scope, stages, i, varIds, assignments, result)
    && problems == initial + StagesProblems(oracle, scope, stages, assignments, varIds, i)
  }

  ghost predicate StagesAssigned(oracle: Oracle, scope: Scope, stages: seq<U.UntypedExpr>, i: nat,
                                 varIds: seq<nat>, assignments: seq<T.PipelineAssignment>, result: Option<T.TypedExpr>)
    requires i <= |stages| && |varIds| == i && |assignments| == 1 + i - (if result.Some? then 1 else 0)
  {
    && (forall k :: 0 <= k < i && k + 1 < |assignments| ==>
          var left := assignments[k].value;
          assignments[k + 1].value == StageRewrite(oracle, PipeScope(scope, left), varIds[k], T.TypeOf(left), left.location, stages[k]))
    && (result.Some? ==>
          0 < i && var left := assignments[i - 1].value;
          result.value == StageRewrite(oracle, PipeScope(scope, left), varIds[i - 1], T.TypeOf(left), left.location, stages[i - 1]))
  }

  /** One more stage typed against the last assignment keeps `StagesTyped`. */
  lemma StagesTypedStep(oracle: Oracle, scope: Scope, initial: seq<Problem>, stages: seq<U.UntypedExpr>, i: nat,
                        varIds: seq<nat>, assignments: seq<T.PipelineAssignment>, problems: seq<Problem>,
                        stageScope: Scope, argumentType: Types.Type, argumentLocation: SrcSpan, varId: nat,
                        call: T.TypedExpr, last: bool)
    requires i < |stages| && StagesTyped(oracle, scope, initial, stages, i, varIds, assignments, problems, None)
    requires stageScope == PipeScope(scope, assignments[i].value)
    requires argumentType == T.TypeOf(assignments[i].value) && argumentLocation == assignments[i].value.location
    requires call == StageRewrite(oracle, stageScope, varId, argumentType, argumentLocation, stages[i])
    ensures var logged := problems + HoleWarnings(stages[i]) + StageProblems(oracle, stageScope, varId, argumentType, argumentLocation, stages[i]);
            if last then StagesTyped(oracle, scope, initial, stages, i + 1, varIds + [varId], assignments, logged, Some(call))
            else StagesTyped(oracle, scope, initial, stages, i + 1, varIds + [varId],
                             assignments + [T.PipelineAssignment(call.location, PIPE_VARIABLE, call)], logged, None)
  {
    var assignments' := if last then assignments else assignments + [T.PipelineAssignment(call.location, PIPE_VARIABLE, call)];
    StagesAssignedStep(oracle, scope, stages, i, varIds, assignments, varId, call, last);
    StagesLoggedStep(oracle, scope, initial, stages, i, varIds, assignments, assignments', problems, varId);
  }

  /** Typing stage `i` appends its problems to the log of the stages before. */
  lemma StagesLoggedStep(oracle: Oracle, scope: Scope, initial: seq<Problem>, stages: seq<U.UntypedExpr>, i: nat,
                         varIds: seq<nat>, assignments: seq<T.PipelineAssignment>, assignments': seq<T.PipelineAssignment>,
                         problems: seq<Problem>, varId: nat)
    requires i < |stages| && i < |assignments| && i == |varIds| && assignments <= assignments'
    requires problems == initial + StagesProblems(oracle, scope, stages, assignments, varIds, i)
    ensures var left := assignments[i].value;
            problems + HoleWarnings(stages[i])
            + StageProblems(oracle, PipeScope(scope, left), varId, T.TypeOf(left), left.location, stages[i])
            == initial + StagesProblems(oracle, scope, stages, assignments', varIds + [varId], i + 1)
  {
    StagesProblemsSnoc(oracle, scope, stages, assignments, varIds, assignments', varId, i);
    var left := assignments[i].value;
    var before := StagesProblems(oracle, scope, stages, assignments, varIds, i);
    var stage := StageProblems(oracle, PipeScope(scope, left), varId, T.TypeOf(left), left.location, stages[i]);
    assert initial + before + HoleWarnings(stages[i]) + stage == initial + (before + HoleWarnings(stages[i]) + stage);
  }

  lemma StagesAssignedStep(oracle: Oracle, scope: Scope, stages: seq<U.UntypedExpr>, i: nat,
                           varIds: seq<nat>, assignments: seq<T.PipelineAssignment>, varId: nat,
                           call: T.TypedExpr, last: bool)
    requires i < |stages| && |varIds| == i && |assignments| == i + 1
    requires StagesAssigned(oracle, scope, stages, i, varIds, assignments, None)
    requires var left := assignments[i].value;
             call == StageRewrite(oracle, PipeScope(scope, left), varId, T.TypeOf(left), left.location, stages[i])
    ensures if last then StagesAssigned(oracle, scope, stages, i + 1, varIds + [varId], assignments, Some(call))
            else StagesAssigned(oracle, scope, stages, i + 1, varIds + [varId],
                                assignments + [T.PipelineAssignment(call.location, PIPE_VARIABLE, call)], None)
  {
  }

  /** Once every stage is typed, the loop's account of them is
      `StagesRewritten` and `StagesProblems`. */
  lemma StagesTypedRewritten(oracle: Oracle, scope: Scope, initial: seq<Problem>, stages: seq<U.UntypedExpr>, varIds: seq<nat>,
                             assignments: seq<T.PipelineAssignment>, problems: seq<Problem>, finally: T.TypedExpr)
    requires StagesTyped(oracle, scope, initial, stages, |stages|, varIds, assignments, problems, Some(finally)) && |stages| > 0
    ensures StagesRewritten(oracle, scope, stages, assignments, finally, varIds)
    ensures problems == initial + StagesProblems(oracle, scope, stages, assignments, varIds, |stages|)
  {
    forall k | 0 <= k < |stages|
      ensures var left := assignments[k].value;
              StageValue(assignments, finally, k)
                == StageRewrite(oracle, PipeScope(scope, left), varIds[k], T.TypeOf(left), left.location, stages[k])
    {
    }
  }

  /** Every stage after the first becomes a call. */
  lemma StagesAreCalls(oracle: Oracle, scope: Scope, stages: seq<U.UntypedExpr>,
                       assignments: seq<T.PipelineAssignment>, finally: T.TypedExpr, varIds: seq<nat>)
    requires StagesRewritten(oracle, scope, stages, assignments, finally, varIds) && |stages| > 0
    ensures finally.Call? && forall k :: 1 <= k < |assignments| ==> assignments[k].value.Call?
  {
    assert StageValue(assignments, finally, |stages| - 1) == finally;
    forall k | 1 <= k < |assignments|
      ensures assignments[k].value.Call?
    {
      assert StageValue(assignments, finally, k - 1) == assignments[k].value;
    }
  }

  // ---------------------------------------------------------------------
  // The pipe typer

  class PipeTyper {
    /** The number of stages of the pipeline, the first included. */
    const size: nat
    var argumentType: Types.Type
    var argumentLocation: SrcSpan
    const location: SrcSpan
    var assignments: seq<T.PipelineAssignment>
    const exprTyper: ExprTyper

    /** Every assignment binds `_pipe` at the location of its value; the
        current left-hand type and location, and the scope's `_pipe`, are
        those of the last assignment. */
    ghost predicate Valid()
      reads this, exprTyper
    {
      |assignments| > 0
      && (forall k :: 0 <= k < |assignments| ==>
            assignments[k].name == PIPE_VARIABLE && assignments[k].location == assignments[k].value.location)
      && argumentType == T.TypeOf(assignments[|assignments| - 1].value)
      && argumentLocation == assignments[|assignments| - 1].value.location
      && PIPE_VARIABLE in exprTyper.scope
      && exprTyper.scope[PIPE_VARIABLE] == ScopeEntry(argumentLocation, T.Generated, argumentType)
    }

    constructor (size: nat, exprTyper: ExprTyper, argumentType: Types.Type, argumentLocation: SrcSpan, location: SrcSpan)
      ensures this.size == size && this.exprTyper == exprTyper && this.location == location
      ensures this.argumentType == argumentType && this.argumentLocation == argumentLocation
      ensures assignments == []
    {
      this.size := size;
      this.exprTyper := exprTyper;
      this.argumentType := argumentType;
      this.argumentLocation := argumentLocation;
      this.location := location;
      assignments := [];
    }

    /** Binds `_pipe` to `expression`, both in the scope (for typing the
        rest of the pipeline) and as a new assignment of the pipeline. The
        left-hand type and location are left as they are. */
    method PushAssignmentNoUpdate(expression: T.TypedExpr)
      modifies this, exprTyper
      ensures assignments == old(assignments) + [T.PipelineAssignment(expression.location, PIPE_VARIABLE, expression)]
      ensures exprTyper.scope == old(exprTyper.scope)[PIPE_VARIABLE := ScopeEntry(expression.location, T.Generated, T.TypeOf(expression))]
      ensures argumentType == old(argumentType) && argumentLocation == old(argumentLocation)
      ensures exprTyper.problems == old(exprTyper.problems) && exprTyper.nextVarId == old(exprTyper.nextVarId)
    {
      var location := expression.location;
      exprTyper.InsertLocalVariable(PIPE_VARIABLE, location, T.Generated, T.TypeOf(expression));
      assignments := assignments + [T.PipelineAssignment(location, PIPE_VARIABLE, expression)];
    }

    /** Pushes `expression` and makes it the value on the left of the next
        stage. */
    method PushAssignment(expression: T.TypedExpr)
      requires Valid()
      modifies this, exprTyper
      ensures Valid()
      ensures assignments == old(assignments) + [T.PipelineAssignment(expression.location, PIPE_VARIABLE, expression)]
      ensures argumentType == T.TypeOf(expression) && argumentLocation == expression.location
      ensures exprTyper.scope == old(exprTyper.scope)[PIPE_VARIABLE := ScopeEntry(expression.location, T.Generated, T.TypeOf(expression))]
      ensures exprTyper.problems == old(exprTyper.problems) && exprTyper.nextVarId == old(exprTyper.nextVarId)
    {
      argumentType := T.TypeOf(expression);
      argumentLocation := expression.location;
      PushAssignmentNoUpdate(expression);
    }

    /** `left |> fun` as `fun(left)`: `fun` must accept one argument of the
        left-hand type and return a fresh type variable, the type of the
        call. A failed unification is logged, as a pipe type mismatch when
        `IsPipeTypeMismatch` says so and with the types flipped otherwise. */
    method InferApplyPipe(fun: U.UntypedExpr) returns (r: T.TypedExpr)
      modifies exprTyper
      ensures exprTyper.scope == old(exprTyper.scope)
      ensures var callee := InferredOrInvalid(exprTyper.oracle, old(exprTyper.scope), old(exprTyper.nextVarId), fun, fun.location);
              var used := if exprTyper.oracle.infer(fun, old(exprTyper.scope)).Failed? then 1 else 0;
              var returnType := Types.Var(old(exprTyper.nextVarId) + used);
              && r == T.TypedExpr.Call(callee.location, returnType, callee, [TypedLeftHandArgument(argumentType, argumentLocation)])
              && exprTyper.nextVarId == old(exprTyper.nextVarId) + used + 1
              && exprTyper.problems == old(exprTyper.problems) + InferProblems(exprTyper.oracle, old(exprTyper.scope), fun)
                                       + UnifyProblems(exprTyper.oracle, callee, Types.Fn([argumentType], returnType))
    {
      var callee := exprTyper.InferOrInvalid(fun, fun.location);
      var returnType := exprTyper.NewUnboundVar();
      var unified := exprTyper.oracle.unify(T.TypeOf(callee), Types.Fn([argumentType], returnType));
      if unified.Some? {
        var error := if IsPipeTypeMismatch(exprTyper.oracle.unify, unified.value) then
                       UnifyProblem(unified.value, callee.location, false, Some(PipeTypeMismatch))
                     else
                       UnifyProblem(unified.value, callee.location, true, None);
        exprTyper.ReportError(error);
      }
      r := T.TypedExpr.Call(callee.location, returnType, callee, [TypedLeftHandArgument(argumentType, argumentLocation)]);
    }

    /** Warns when the stage is a capture whose hole is the first argument:
        `x |> f(_, y)` means the same as `x |> f(y)`. */
    method WarnIfCallFirstArgumentIsHole(call: U.UntypedExpr)
      modifies exprTyper
      ensures exprTyper.problems == old(exprTyper.problems) + HoleWarnings(call)
      ensures |HoleWarnings(call)| == if RedundantCaptureHole(call).Some? then 1 else 0
      ensures RedundantCaptureHole(call).Some? ==>
                exprTyper.problems[|old(exprTyper.problems)|]
                  == WarningProblem(RedundantPipeFunctionCapture(RedundantCaptureHole(call).value))
      ensures exprTyper.scope == old(exprTyper.scope) && exprTyper.nextVarId == old(exprTyper.nextVarId)
    {
      var hole := RedundantCaptureHole(call);
      if hole.Some? {
        exprTyper.ReportWarning(RedundantPipeFunctionCapture(hole.value));
      }
    }

    /** Types one stage after the first, by its shape, as `StageRewrite`
        says. Typing a function literal neither logs a problem nor takes a
        fresh type variable; a call takes one only when its callee fails to
        infer; anything else takes at least the one of its return type. */
    method InferStage(call: U.UntypedExpr) returns (r: T.TypedExpr)
      modifies exprTyper
      ensures r == StageRewrite(exprTyper.oracle, old(exprTyper.scope), old(exprTyper.nextVarId), argumentType, argumentLocation, call)
      ensures exprTyper.problems
           == old(exprTyper.problems) + StageProblems(exprTyper.oracle, old(exprTyper.scope), old(exprTyper.nextVarId), argumentType, argumentLocation, call)
      ensures exprTyper.scope == old(exprTyper.scope)
      ensures old(exprTyper.nextVarId) <= exprTyper.nextVarId
      ensures call.Fn? ==> exprTyper.nextVarId == old(exprTyper.nextVarId)
      ensures call.Call? ==>
                exprTyper.nextVarId == old(exprTyper.nextVarId) + if exprTyper.oracle.infer(call.fun, old(exprTyper.scope)).Failed? then 1 else 0
      ensures !call.Fn? && !call.Call? ==> old(exprTyper.nextVarId) < exprTyper.nextVarId && r.tipe == Types.Var(exprTyper.nextVarId - 1)
    {
      match call
      case Fn(location, _, _) =>
        var inference := exprTyper.oracle.inferCall(call, [LeftHandArgument(argumentLocation)], location, exprTyper.scope);
        r := CallOf(inference, location);
      case Call(location, fun, arguments) =>
        var callee := exprTyper.InferOrInvalid(fun, location);
        if exprTyper.oracle.fnArity(T.TypeOf(callee)) == Some(|arguments|) {
          r := InferApplyToCallPipe(exprTyper.oracle, exprTyper.scope, argumentLocation, callee, arguments, location);
        } else {
          r := InferInsertPipe(exprTyper.oracle, exprTyper.scope, argumentLocation, callee, arguments, location);
        }
      case _ =>
        r := InferApplyPipe(call);
    }

    /** Warns about a redundant capture hole in the next stage, then types
        it against the current left-hand value. */
    method InferNextStage(expression: U.UntypedExpr) returns (call: T.TypedExpr)
      requires Valid()
      modifies exprTyper
      ensures Valid()
      ensures call == StageRewrite(exprTyper.oracle, old(exprTyper.scope), old(exprTyper.nextVarId), argumentType, argumentLocation, expression)
      ensures exprTyper.problems
           == old(exprTyper.problems) + HoleWarnings(expression)
              + StageProblems(exprTyper.oracle, old(exprTyper.scope), old(exprTyper.nextVarId), argumentType, argumentLocation, expression)
      ensures exprTyper.scope == old(exprTyper.scope)
      ensures old(exprTyper.nextVarId) <= exprTyper.nextVarId
    {
      WarnIfCallFirstArgumentIsHole(expression);
      call := InferStage(expression);
    }

    /** One turn of the loop over the stages: types stage `i` and pushes it
        as the next assignment, unless it is the `last` stage, which becomes
        the result. */
    method AdvanceStage(ghost scope: Scope, ghost initial: seq<Problem>, stages: seq<U.UntypedExpr>, i: nat,
                        ghost varIds: seq<nat>, last: bool) returns (result: Option<T.TypedExpr>, ghost varIds': seq<nat>)
      requires Valid() && i < |stages|
      requires StagesTyped(exprTyper.oracle, scope, initial, stages, i, varIds, assignments, exprTyper.problems, None)
      requires exprTyper.scope == scope[PIPE_VARIABLE := exprTyper.scope[PIPE_VARIABLE]]
      modifies this, exprTyper
      ensures Valid()
      ensures StagesTyped(exprTyper.oracle, scope, initial, stages, i + 1, varIds', assignments, exprTyper.problems, result)
      ensures exprTyper.scope == scope[PIPE_VARIABLE := exprTyper.scope[PIPE_VARIABLE]]
      ensures result.Some? <==> last
      ensures varIds' == varIds + [old(exprTyper.nextVarId)]
      ensures old(assignments) <= assignments
      ensures old(exprTyper.nextVarId) <= exprTyper.nextVarId
    {
      ghost var before, problems := assignments, exprTyper.problems;
      ghost var stageScope, stageType, stageLocation := exprTyper.scope, argumentType, argumentLocation;
      PipeBound(scope, stageScope, before[i].value);
      ghost var nextId := exprTyper.nextVarId;
      varIds' := varIds + [nextId];
      var call := InferNextStage(stages[i]);
      StagesTypedStep(exprTyper.oracle, scope, initial, stages, i, varIds, before, problems,
                      stageScope, stageType, stageLocation, nextId, call, last);
      if last {
        result := Some(call);
      } else {
        result := None;
        PushAssignment(call);
        PipeRebound(scope, stageScope, exprTyper.scope[PIPE_VARIABLE]);
      }
    }

    /** Types the stages after the first. Every stage but the last is pushed
        as an assignment and becomes the value on the left of the next; the
        last is returned as the pipeline's final expression. `varIds` holds the
        next fresh type variable each stage was typed with. */
    method InferEachExpression(ghost scope: Scope, expressions: seq<U.UntypedExpr>) returns (finally: T.TypedExpr, ghost varIds: seq<nat>)
      requires Valid() && |assignments| == 1
      requires |expressions| + 1 == size && |expressions| > 0
      requires exprTyper.scope == scope[PIPE_VARIABLE := exprTyper.scope[PIPE_VARIABLE]]
      modifies this, exprTyper
      ensures Valid()
      ensures |assignments| == |expressions| && assignments[0] == old(assignments[0])
      ensures StagesRewritten(exprTyper.oracle, scope, expressions, assignments, finally, varIds)
      ensures exprTyper.problems
           == old(exprTyper.problems) + StagesProblems(exprTyper.oracle, scope, expressions, assignments, varIds, |expressions|)
      ensures exprTyper.scope == scope[PIPE_VARIABLE := exprTyper.scope[PIPE_VARIABLE]]
      ensures old(exprTyper.nextVarId) <= exprTyper.nextVarId
      ensures VarIdsWithin(varIds, old(exprTyper.nextVarId), exprTyper.nextVarId)
    {
      var result: Option<T.TypedExpr> := None;
      varIds := [];
      for i := 0 to |expressions|
        invariant Valid()
        invariant StagesTyped(exprTyper.oracle, scope, old(exprTyper.problems), expressions, i, varIds,
                              assignments, exprTyper.problems, result)
        invariant exprTyper.scope == scope[PIPE_VARIABLE := exprTyper.scope[PIPE_VARIABLE]]
        invariant result.Some? <==> i == |expressions|
        invariant assignments[0] == old(assignments[0])
        invariant old(exprTyper.nextVarId) <= exprTyper.nextVarId
        invariant VarIdsWithin(varIds, old(exprTyper.nextVarId), exprTyper.nextVarId)
      {
        ghost var counter, recorded := exprTyper.nextVarId, varIds;
        result, varIds := AdvanceStage(scope, old(exprTyper.problems), expressions, i, varIds, i + 2 == size);
        VarIdsWithinStep(recorded, old(exprTyper.nextVarId), counter, exprTyper.nextVarId);
      }
      finally := result.value;
      StagesTypedRewritten(exprTyper.oracle, scope, old(exprTyper.problems), expressions, varIds,
                           assignments, exprTyper.problems, finally);
    }

    /** Collects the pushed assignments and the final expression into the
        pipeline node, leaving the typer's assignment list empty. */
    method InferExpressions(ghost scope: Scope, expressions: seq<U.UntypedExpr>) returns (r: T.TypedExpr, ghost varIds: seq<nat>)
      requires Valid() && |assignments| == 1
      requires |expressions| + 1 == size && |expressions| > 0
      requires exprTyper.scope == scope[PIPE_VARIABLE := exprTyper.scope[PIPE_VARIABLE]]
      modifies this, exprTyper
      ensures r.Pipeline? && r.location == location
      ensures |r.assignments| == |expressions| && r.assignments[0] == old(assignments[0])
      ensures forall k :: 0 <= k < |r.assignments| ==>
                r.assignments[k].name == PIPE_VARIABLE && r.assignments[k].location == r.assignments[k].value.location
      ensures StagesRewritten(exprTyper.oracle, scope, expressions, r.assignments, r.finally, varIds)
      ensures exprTyper.problems
           == old(exprTyper.problems) + StagesProblems(exprTyper.oracle, scope, expressions, r.assignments, varIds, |expressions|)
      ensures assignments == []
      ensures old(exprTyper.nextVarId) <= exprTyper.nextVarId
      ensures VarIdsWithin(varIds, old(exprTyper.nextVarId), exprTyper.nextVarId)
    {
      var finally;
      finally, varIds := InferEachExpression(scope, expressions);
      var pushed := assignments;
      assignments := [];
      r := T.TypedExpr.Pipeline(location, pushed, finally);
    }

    /** Types a pipeline of at least two stages: the first stage is inferred
        (or stood in for by `Invalid` at its location when that fails) and
        pushed without changing the left-hand value it already is; then the
        other stages follow, each typed against the value of the assignment
        before it. The pipeline spans from the first typed value to the end
        of the last stage. */
    static method Run(exprTyper: ExprTyper, expressions: seq<U.UntypedExpr>) returns (r: T.TypedExpr, ghost varIds: seq<nat>)
      requires |expressions| >= 2
      modifies exprTyper
      ensures r.Pipeline? && r.finally.Call?
      ensures |r.assignments| == |expressions| - 1
      ensures forall k :: 0 <= k < |r.assignments| ==>
                r.assignments[k].name == PIPE_VARIABLE && r.assignments[k].location == r.assignments[k].value.location
      ensures forall k :: 1 <= k < |r.assignments| ==> r.assignments[k].value.Call?
      ensures r.location == SrcSpan(r.assignments[0].value.location.start, expressions[|expressions| - 1].location.end)
      ensures match exprTyper.oracle.infer(expressions[0], old(exprTyper.scope))
              case Inferred(e) => r.assignments[0].value == e
              case Failed(error) =>
                r.assignments[0].value == T.TypedExpr.Invalid(expressions[0].location, Types.Var(old(exprTyper.nextVarId)))
                && |exprTyper.problems| > |old(exprTyper.problems)|
                && exprTyper.problems[|old(exprTyper.problems)|] == ErrorProblem(error)
      ensures StagesRewritten(exprTyper.oracle, old(exprTyper.scope), expressions[1..], r.assignments, r.finally, varIds)
      ensures exprTyper.problems
           == old(exprTyper.problems) + InferProblems(exprTyper.oracle, old(exprTyper.scope), expressions[0])
              + StagesProblems(exprTyper.oracle, old(exprTyper.scope), expressions[1..], r.assignments, varIds, |expressions| - 1)
      ensures old(exprTyper.nextVarId) <= exprTyper.nextVarId
      ensures VarIdsWithin(varIds, old(exprTyper.nextVarId), exprTyper.nextVarId)
    {
      var size := |expressions|;
      var end := expressions[size - 1].location.end;
      var first := exprTyper.InferOrInvalid(expressions[0], expressions[0].location);
      ghost var afterFirst := exprTyper.problems;
      ghost var scope := exprTyper.scope;
      var typer := new PipeTyper(size, exprTyper, T.TypeOf(first), first.location, SrcSpan(first.location.start, end));
      typer.PushAssignmentNoUpdate(first);
      assert afterFirst == old(exprTyper.problems) + InferProblems(exprTyper.oracle, scope, expressions[0]);
      r, varIds := typer.InferExpressions(scope, expressions[1..]);
      StagesAreCalls(exprTyper.oracle, scope, expressions[1..], r.assignments, r.finally, varIds);
    }

    /** Types a pipeline and then puts back the scope it started with: the
        `_pipe` bindings made while typing it do not leak out. */
    static method Infer(exprTyper: ExprTyper, expressions: seq<U.UntypedExpr>) returns (r: T.TypedExpr, ghost varIds: seq<nat>)
      requires |expressions| >= 2
      modifies exprTyper
      ensures exprTyper.scope == old(exprTyper.scope)
      ensures r.Pipeline? && r.finally.Call?
      ensures |r.assignments| == |expressions| - 1
      ensures forall k :: 0 <= k < |r.assignments| ==>
                r.assignments[k].name == PIPE_VARIABLE && r.assignments[k].location == r.assignments[k].value.location
      ensures forall k :: 1 <= k < |r.assignments| ==> r.assignments[k].value.Call?
      ensures r.location == SrcSpan(r.assignments[0].value.location.start, expressions[|expressions| - 1].location.end)
      ensures match exprTyper.oracle.infer(expressions[0], old(exprTyper.scope))
              case Inferred(e) => r.assignments[0].value == e
              case Failed(error) =>
                r.assignments[0].value == T.TypedExpr.Invalid(expressions[0].location, Types.Var(old(exprTyper.nextVarId)))
                && |exprTyper.problems| > |old(exprTyper.problems)|
                && exprTyper.problems[|old(exprTyper.problems)|] == ErrorProblem(error)
      ensures StagesRewritten(exprTyper.oracle, old(exprTyper.scope), expressions[1..], r.assignments, r.finally, varIds)
      ensures exprTyper.problems
           == old(exprTyper.problems) + InferProblems(exprTyper.oracle, old(exprTyper.scope), expressions[0])
              + StagesProblems(exprTyper.oracle, old(exprTyper.scope), expressions[1..], r.assignments, varIds, |expressions| - 1)
      ensures old(exprTyper.nextVarId) <= exprTyper.nextVarId
      ensures VarIdsWithin(varIds, old(exprTyper.nextVarId), exprTyper.nextVarId)
    {
      var scope := exprTyper.scope;
      r, varIds := Run(exprTyper, expressions);
      exprTyper.scope := scope;
    }
  }
}

=== FILE: text.dfy ===
// Facts about the text the emitter produces: joining with a separator,
// splitting it back, and the nesting depth of parentheses.

module Text {
  import opened Wrappers

  /** Joins the parts with `sep` between neighbours (nothing before the first
      part or after the last), as itertools' `join` does. */
  function Join(parts: seq<string>, sep: string): string
  {
    if |parts| == 0 then ""
    else if |parts| == 1 then parts[0]
    else parts[0] + sep + Join(parts[1..], sep)
  }

  predicate NoSpace(s: string)
  {
    forall i :: 0 <= i < |s| ==> s[i] != ' '
  }

  /** A word as the parameter list of a lambda needs it: not empty, no space. */
  predicate IsWord(s: string)
  {
    |s| > 0 && NoSpace(s)
  }

  /** The index of the first space of `s`, or `|s|` when there is none. */
  function FirstSpace(s: string): (i: nat)
    ensures i <= |s|
    ensures i < |s| ==> s[i] == ' '
    ensures forall k :: 0 <= k < i ==> s[k] != ' '
  {
    if s == [] then 0
    else if s[0] == ' ' then 0
    else 1 + FirstSpace(s[1..])
  }

  /** Cuts `s` at every space; the words between the spaces, in order. */
  function Split(s: string): seq<string>
    decreases |s|
  {
    if s == [] then []
    else
      var i := FirstSpace(s);
      if i == |s| then [s] else [s[..i]] + Split(s[i + 1..])
  }

  lemma {:induction false} FirstSpaceAfterWord(w: string, t: string)
    requires NoSpace(w)
    requires t == [] || t[0] == ' '
    ensures FirstSpace(w + t) == |w|
  {
    if w != [] {
      assert (w + t)[1..] == w[1..] + t;
      FirstSpaceAfterWord(w[1..], t);
    }
  }

  /** Splitting at spaces recovers the words that were joined with single
      spaces, in their order. */
  lemma {:induction false} SplitJoin(words: seq<string>)
    requires forall k :: 0 <= k < |words| ==> IsWord(words[k])
    ensures Split(Join(words, " ")) == words
  {
    if |words| == 1 {
      FirstSpaceAfterWord(words[0], []);
      assert words[0] + [] == words[0];
    } else if |words| > 1 {
      var w, rest := words[0], Join(words[1..], " ");
      var s := w + " " + rest;
      assert s == w + (" " + rest);
      FirstSpaceAfterWord(w, " " + rest);
      assert s[..|w|] == w;
      assert s[|w| + 1..] == rest;
      SplitJoin(words[1..]);
    }
  }

  predicate ParenFree(s: string)
  {
    forall i :: 0 <= i < |s| ==> s[i] != '(' && s[i] != ')'
  }

  /** Reads `s` from the left with `open` parentheses already open: the number
      still open at its end, or `None` when a `)` finds none open. */
  function Nesting(s: string, open: nat): Option<nat>
  {
    if s == [] then Some(open)
    else if s[0] == '(' then Nesting(s[1..], open + 1)
    else if s[0] == ')' then (if open == 0 then None else Nesting(s[1..], open - 1))
    else Nesting(s[1..], open)
  }

  /** Every parenthesis is closed, and none is closed before it is opened. */
  predicate Balanced(s: string)
  {
    Nesting(s, 0) == Some(0)
  }

  /** Reading `a + b` is reading `a`, then reading `b` from where `a` left off. */
  lemma {:induction false} NestingConcat(a: string, b: string, open: nat)
    ensures Nesting(a + b, open) == if Nesting(a, open).None? then None else Nesting(b, Nesting(a, open).value)
    decreases |a|
  {
    if a != [] {
      assert (a + b)[0] == a[0] && (a + b)[1..] == a[1..] + b;
      if a[0] == '(' {
        NestingConcat(a[1..], b, open + 1);
      } else if a[0] == ')' {
        if open > 0 {
          NestingConcat(a[1..], b, open - 1);
        }
      } else {
        NestingConcat(a[1..], b, open);
      }
    } else {
      assert a + b == b;
    }
  }

  lemma NestingOpen(s: string, open: nat)
    ensures Nesting("(" + s, open) == Nesting(s, open + 1)
  {
    assert ("(" + s)[0] == '(' && ("(" + s)[1..] == s;
  }

  lemma NestingClose(s: string, open: nat)
    requires open > 0
    ensures Nesting(")" + s, open) == Nesting(s, open - 1)
  {
    assert (")" + s)[0] == ')' && (")" + s)[1..] == s;
  }

  /** Text without parentheses is skipped over. */
  lemma NestingSkip(p: string, s: string, open: nat)
    requires ParenFree(p)
    ensures Nesting(p + s, open) == Nesting(s, open)
  {
    NestingConcat(p, s, open);
    ParenFreeNesting(p, open);
  }

  /** Reading `a`, then `b` from where `a` left off, is reading `a + b`. */
  lemma NestingStep(a: string, b: string, open: nat, middle: nat, close: nat)
    requires Nesting(a, open) == Some(middle) && Nesting(b, middle) == Some(close)
    ensures Nesting(a + b, open) == Some(close)
  {
    NestingConcat(a, b, open);
  }

  /** Text read successfully stays successful, by the same change in depth,
      when more parentheses are open before it. */
  lemma {:induction false} NestingShift(s: string, open: nat, more: nat)
    requires Nesting(s, open).Some?
    ensures Nesting(s, open + more) == Some(Nesting(s, open).value + more)
    decreases |s|
  {
    if s != [] {
      if s[0] == '(' {
        NestingShift(s[1..], open + 1, more);
      } else if s[0] == ')' {
        NestingShift(s[1..], open - 1, more);
      } else {
        NestingShift(s[1..], open, more);
      }
    }
  }

  lemma {:induction false} ParenFreeNesting(s: string, open: nat)
    requires ParenFree(s)
    ensures Nesting(s, open) == Some(open)
    decreases |s|
  {
    if s != [] {
      ParenFreeNesting(s[1..], open);
    }
  }

  lemma ParenFreeBalanced(s: string)
    requires ParenFree(s)
    ensures Balanced(s)
  {
    ParenFreeNesting(s, 0);
  }

  /** Balanced text leaves the depth where it found it. */
  lemma BalancedNesting(s: string, open: nat)
    requires Balanced(s)
    ensures Nesting(s, open) == Some(open)
  {
    NestingShift(s, 0, open);
  }

  lemma BalancedConcat(a: string, b: string)
    requires Balanced(a) && Balanced(b)
    ensures Balanced(a + b)
  {
    NestingConcat(a, b, 0);
  }

  lemma BalancedWrap(s: string)
    requires Balanced(s)
    ensures Balanced("(" + s + ")")
  {
    assert ("(" + s + ")")[1..] == s + ")";
    NestingConcat(s, ")", 1);
    BalancedNesting(s, 1);
  }

  lemma {:induction false} BalancedJoin(parts: seq<string>, sep: string)
    requires Balanced(sep)
    requires forall k :: 0 <= k < |parts| ==> Balanced(parts[k])
    ensures Balanced(Join(parts, sep))
  {
    if |parts| > 1 {
      BalancedJoin(parts[1..], sep);
      BalancedConcat(parts[0], sep);
      BalancedConcat(parts[0] + sep, Join(parts[1..], sep));
    }
  }

  /** `n` pairs of closing parentheses. */
  function Closers(n: nat): string
  {
    if n == 0 then "" else "))" + Closers(n - 1)
  }

  /** `Closers(n)` closes exactly `2 * n` open parentheses. */
  lemma {:induction false} ClosersClose(n: nat, open: nat)
    ensures Nesting(Closers(n), open + 2 * n) == Some(open)
  {
    if n > 0 {
      NestingConcat("))", Closers(n - 1), open + 2 * n);
      ClosersClose(n - 1, open);
    }
  }
}
